=== FILE: README.md ===
# Terraform-import expander of azbrowse, modelled in Dafny

azbrowse is a terminal browser for Azure resources. Its Terraform-import
expander (`internal/pkg/expanders/tfimport.go`) offers two actions on a
resource node:

- **GetTerraform** works out which `azurerm` Terraform resource type the node's
  ARM identifier is, imports it through the Terraform provider, reads it back,
  and prints the state as a `resource "<type>" "<name>" { ... }` block.
- **GetTerraformRecursive** does the same for the node and for its descendants
  down to depth 50, skipping children the ignore rules match. A node whose
  import fails is still crawled, and its error is written into the text.

This project models that logic as pure functions over immutable data and
proves what it promises. It covers:

- **Type resolution.** A probe of virtual machines for their OS type, then a
  scan of the type table.
- **Property walk.** The walk through the decoded JSON body.
- **Ignore rules.** The child filter: global suffixes, plus templates keyed on
  the parent's type.
- **Import-identifier remapping.** The storage-container override builds a blob
  URL.
- **Configuration serializer.** Attribute rank and order, the computed/optional
  filter, nested-block expansion and the block label.
- **Import/read aggregation.** The import call, then a read of each resource.
- **Per-node action.** Includes the metadata cache of the resolved type.
- **HasActions and ExecuteAction.** The action dispatch.
- **Recursive crawl.** Depth-limited.

The template engine (`endpoints.Match`/`BuildURL`), the ARM GET, the provider
plugin, the HCL printer and the tree's expansion are parameters (oracles). Go
ranges over maps in no fixed order, so each map the code iterates is given an
explicit visit order:

- the type table has an `order` sequence;
- a schema's block types are a sequence whose names are distinct at every
  nesting depth (the `Schema` type), as the keys of a Go map are;
- a schema's attributes are a sequence with distinct names, which is sorted
  anyway.

Lemmas about orders quantify over all of them.

Files (one module each):

- `results.dfy`: Option and Result.
- `strings.dfy`: prefixes, suffixes, dash replacement and byte-wise string order.
- `sorting.dfy`: `sort.Strings`.
- `json.dfy`: decoded JSON and the property walk.
- `templates.dfy`: the template oracle.
- `tables.dfy`: the shipped constant tables.
- `resolver.dfy`, `ignore.dfy`, `remap.dfy`.
- `terraform.dfy`: cty values, schema blocks, output blocks.
- `serializer.dfy`, `importread.dfy`, `expander.dfy`.

The model keeps the code's behaviour exactly, including where a reader might
expect otherwise:

- **`HasActions` ignores the cache.** It always resolves the type again,
  including the VM probe. It never reads the cached type, and it caches only a
  non-empty type.
- **The child filter falls back to the crawl's starting type.** When a node
  has no cached type, its children are filtered with the type the crawl
  *started* with, not with the parent's type. That type is `""` for the
  action, since `lastResourceTypeName` is passed down unchanged. See
  `Expander.UntypedNodeFallsBackToRootType`.
- **Some behaviour is kept exactly as written:**
  - a VM whose `osType` is absent or not a string resolves to `""` with no
    error;
  - any other `osType` string falls through to the table scan, where the VM
    template is registered under two type names (`Resolver.VmUnknownOsAmbiguous`);
  - the `result.Err` branch of the child loop can never be taken, because a
    crawl never produces an error. The model's crawl result (`Crawled`) has no
    error field.

## Model

| member | source | states |
|---|---|---|
| Strings.ReplaceDashes | internal/pkg/expanders/tfimport.go:586 | every `-` of the name becomes `_`, every other character and the length are kept |
| Sorting.Sort | internal/pkg/expanders/tfimport.go:548 | `sort.Strings` on distinct keys: the result is strictly ascending byte-wise and holds exactly the input's keys |
| Sorting.SortIgnoresInputOrder | internal/pkg/expanders/tfimport.go:531-548 | the sorted key list depends only on which keys were collected, not on the order the map was ranged in |
| Json.Lookup | internal/pkg/expanders/tfimport.go:225-243 | a non-object, or a missing key, gives null (not an error); an object with the key at the end of the path gives its value |
| Json.LookupInBody | internal/pkg/expanders/tfimport.go:216-224 | undecodable text gives the decoder's error; a top-level `null` gives null without error; any other non-object top level is a type error; an object is walked |
| Json.LookupNest | internal/pkg/expanders/tfimport.go:225-235 | walking a path through the document built along it finds the value put there |
| Json.LookupConcat | internal/pkg/expanders/tfimport.go:225-241 | a walk along `p + q` is a walk along `p` then along `q`; a null met part way stays null |
| Resolver.ScanTable | internal/pkg/expanders/tfimport.go:207-213 | the type-table scan returns `""` or a table key whose template matches the identifier |
| Resolver.ScanTableComplete | internal/pkg/expanders/tfimport.go:207-213 | the scan returns `""` if and only if no template in the table matches, whatever the visit order |
| Resolver.ScanTableUnique | internal/pkg/expanders/tfimport.go:207-213 | when exactly one template matches, every visit order returns its key |
| Resolver.ProbedOs | internal/pkg/expanders/tfimport.go:186-194 | the osType is read only when the GET and the walk both succeed, and it is the walk of the decoded document along `properties.storageProfile.osDisk.osType`; a top-level `null` body gives null |
| Resolver.ResolveType | internal/pkg/expanders/tfimport.go:184-214 | a non-VM identifier gives the scan's answer; for a VM, a failed GET, an undecodable body or a non-object top level gives that error; otherwise osType "Windows" and "Linux" give the two VM types, any other string gives the scan's answer, and a non-string or missing osType gives `""` |
| Resolver.VmProbeWindows | internal/pkg/expanders/tfimport.go:185-201 | a VM whose body, whatever else it holds, has osType "Windows" resolves to `azurerm_windows_virtual_machine` |
| Resolver.VmProbeLinux | internal/pkg/expanders/tfimport.go:185-203 | a VM whose body, whatever else it holds, has osType "Linux" resolves to `azurerm_linux_virtual_machine` |
| Resolver.VmProbeNonStringOs | internal/pkg/expanders/tfimport.go:191-198 | a VM whose body has an osType that is absent or not a string resolves to `""` with no error and no table scan |
| Resolver.VmProbeMissingProperties | internal/pkg/expanders/tfimport.go:191-198 | a VM body without `properties` resolves to `""` with no error |
| Resolver.VmUnknownOsAmbiguous | internal/pkg/expanders/tfimport.go:199-210 | any osType string other than "Windows" and "Linux" falls through to the table; with the VM template under both VM names, the answer is whichever of the two the map visit meets first |
| Tables.VmTemplateRegisteredTwice | internal/pkg/expanders/tfimport.go:62-63 | the shipped type table registers the VM template under both the Windows and the Linux VM type name |
| Resolver.ShippedVmUnknownOsAmbiguous | internal/pkg/expanders/tfimport.go:199-213 | with the shipped table, a VM with an unrecognised osType resolves differently under two visit orders |
| IgnoreRules.EndsWithAny | internal/pkg/expanders/tfimport.go:362-371 | the suffix loop answers yes exactly when the identifier ends with one of the suffixes |
| IgnoreRules.MatchesAny | internal/pkg/expanders/tfimport.go:377-384 | the template loop answers yes exactly when one of the parent type's templates matches |
| IgnoreRules.RulesFor | internal/pkg/expanders/tfimport.go:377 | a parent type without an entry in the ignore table has no template rules; otherwise its registered templates |
| IgnoreRules.Ignored | internal/pkg/expanders/tfimport.go:361-388 | a child is skipped if and only if it ends with a global suffix or matches a template registered for the parent type |
| IgnoreRules.SuffixWins | internal/pkg/expanders/tfimport.go:363-371 | a suffix match skips the child whatever the parent type |
| IgnoreRules.UnlistedParentFiltersBySuffixOnly | internal/pkg/expanders/tfimport.go:377-384 | a parent type without ignore templates filters by suffix only |
| IgnoreRules.DiagnosticSettingsSkipped | internal/pkg/expanders/tfimport.go:69-75 | with the shipped suffixes, any `.../<diagsettings>` child is skipped |
| IgnoreRules.SuffixesAreCaseSensitive | internal/pkg/expanders/tfimport.go:69-75 | the suffix test is case-sensitive: `/providers/Microsoft.Insights/metrics` is not skipped by suffix |
| IgnoreRules.ContainerChildSkipped | internal/pkg/expanders/tfimport.go:83-85 | below a storage container, any child matching the container-path template is skipped |
| IgnoreRules.EmptyParentTypeFiltersBySuffixOnly | internal/pkg/expanders/tfimport.go:373-377 | with the shipped tables, the fallback type `""` has no templates, so it filters by suffix only |
| Remap.BlobContainerId | internal/pkg/expanders/tfimport.go:100-113 | the override fails as the build of `/{containerName}` fails, fails without `accountName`, and otherwise gives `https://<account>.blob.core.windows.net<path>` |
| Remap.ImportId | internal/pkg/expanders/tfimport.go:455-460 | a type without an override imports under the rebuilt identifier; a type with one uses its override |
| Remap.ParseBlobUrlRoundTrip | internal/pkg/expanders/tfimport.go:110-111 | the blob URL of account A (no dots) and container C splits back into A and C |
| Remap.StorageContainerImportId | internal/pkg/expanders/tfimport.go:99-113 | with the shipped tables, a storage container C in account A imports as `https://A.blob.core.windows.net/C`, which parses back to A and C |
| Remap.StorageContainerNeedsAccount | internal/pkg/expanders/tfimport.go:110-112 | without `accountName` among the captured values the storage-container import identifier is an error |
| Remap.OtherTypesUseBuild | internal/pkg/expanders/tfimport.go:94-96 | with the shipped tables every type other than the storage container imports under `BuildURL` of the captured values |
| Serializer.SortKeyOrder | internal/pkg/expanders/tfimport.go:531-548 | sorting the one-letter-prefixed keys orders names by rank (id, name, location, resource_group_name, `_id`/`_ids`, rest), then byte-wise |
| Serializer.RankPrefix | internal/pkg/expanders/tfimport.go:531-545 | the prefix letter is `a`..`e`, `z` by rank, so it ascends with the documented order |
| Serializer.Keys | internal/pkg/expanders/tfimport.go:531-547 | one collected key per schema attribute, its rank letter followed by the unchanged name |
| Serializer.FindAttrUnique | internal/pkg/expanders/tfimport.go:552 | the schema lookup by name finds exactly the attribute of that name |
| Serializer.Emit | internal/pkg/expanders/tfimport.go:550-557 | each attribute written carries the state's value and its prefixed key is one of the sorted keys |
| Serializer.EmitWrites | internal/pkg/expanders/tfimport.go:550-557 | the emission loop writes a name exactly when its prefixed key was collected and the schema says it is settable |
| Serializer.EmitOrdered | internal/pkg/expanders/tfimport.go:548-557 | the emission loop writes names in the order of the sorted prefixed keys |
| Serializer.EmittedAttributes | internal/pkg/expanders/tfimport.go:523-557 | the attributes written are exactly those that are not computed or are optional, each with the state's value, strictly ordered by rank then name |
| Serializer.AttributesIgnoreSchemaOrder | internal/pkg/expanders/tfimport.go:531-557 | the written attributes do not depend on the order the schema's attribute map is ranged in |
| Serializer.ComputedOnlyOmitted | internal/pkg/expanders/tfimport.go:553 | a computed attribute is written if and only if it is also optional |
| Serializer.PlainAttributeWritten | internal/pkg/expanders/tfimport.go:553-555 | a non-computed attribute is always written |
| Serializer.EmittedNames | internal/pkg/expanders/tfimport.go:524-557 | any list of exactly the settable names in rank-then-name order is the list written |
| Serializer.ExampleOrder | internal/pkg/expanders/tfimport.go:524-548 | on {zebra, id, name, custom_id, location} the written order is id, name, location, custom_id, zebra |
| Serializer.WriteBody | internal/pkg/expanders/tfimport.go:523-579 | a block body holds the written attributes (values, exact set, order); for every block type, its nested blocks are exactly those its state value expands to, no other kind appears, and the kinds come grouped in block-type visit order |
| Serializer.WriteNested | internal/pkg/expanders/tfimport.go:559-578 | the block-type loop writes, for each block type, exactly the blocks its value expands to, only kinds of the schema, grouped in visit order |
| Serializer.ExpandNested | internal/pkg/expanders/tfimport.go:561-577 | an object value gives exactly one nested block; an iterable gives one per object element in element order; anything else gives none |
| Serializer.ExpandElems | internal/pkg/expanders/tfimport.go:566-574 | the iterator loop writes one block per object-typed element, in element order |
| Serializer.ElemBlocks | internal/pkg/expanders/tfimport.go:567-573 | an object element gives one block of the block type, any other element none |
| Serializer.NonObjectsIgnored | internal/pkg/expanders/tfimport.go:566-574 | dropping the non-object elements of an iterable first changes no output |
| Serializer.SingleObjectIsOneElementList | internal/pkg/expanders/tfimport.go:563-574 | a single object value writes the same block as a one-element list of it |
| Serializer.ExpandElemsAppend | internal/pkg/expanders/tfimport.go:567-574 | the blocks of a concatenated iterable are the blocks of each part, in order |
| Serializer.LocalName | internal/pkg/expanders/tfimport.go:583-587 | the label is the `name` attribute with dashes made underscores (so it has no `-`), or `todo_resource_name` without one; a non-string name or non-object state is an error |
| Serializer.PrintState | internal/pkg/expanders/tfimport.go:580-597 | success is one `resource` block labelled with the type and the local name around the written body; a missing schema or bad name is an error |
| ImportRead.SchemaFor | internal/pkg/expanders/tfimport.go:507 | the schema of a type the provider knows, none otherwise |
| ImportRead.ReadOne | internal/pkg/expanders/tfimport.go:499-517 | a null read is the error `Null state on read for "<id>"`; success is the printed block followed by a newline |
| ImportRead.Sequence | internal/pkg/expanders/tfimport.go:497-520 | the loop succeeds if and only if every step does, then joins their texts; otherwise it fails with the first failure |
| ImportRead.SequenceAppend | internal/pkg/expanders/tfimport.go:497-520 | running two batches in one loop is running them one after the other; a failure in the first hides the second |
| ImportRead.Aggregate | internal/pkg/expanders/tfimport.go:497-520 | the output is the concatenation of each resource's text in import order, or the first resource's failure, discarding partial output |
| ImportRead.TerraformFor | internal/pkg/expanders/tfimport.go:485-521 | getTerraformFor succeeds exactly when every imported resource reads and prints, giving their joined texts |
| ImportRead.NothingImportedIsEmpty | internal/pkg/expanders/tfimport.go:497-520 | an import that produces nothing gives empty text, not an error |
| ImportRead.AggregateAppend | internal/pkg/expanders/tfimport.go:498-518 | aggregating two batches of imported resources is aggregating the first followed by the second |
| ImportRead.NullReadFails | internal/pkg/expanders/tfimport.go:509-511 | a null read after resources that printed fails the whole call with `Null state on read for "<id>"` |
| ImportRead.SingleResource | internal/pkg/expanders/tfimport.go:504-517 | one imported resource that reads back prints as one `resource` block and a newline |
| Expander.EnsureProvider | internal/pkg/expanders/tfimport.go:154-182 | the provider is set up once; a set-up that succeeds marks the provider ready, and a failed one returns its error and is tried again next time |
| Expander.TerraformForType | internal/pkg/expanders/tfimport.go:433-474 | an empty type, a type without a template and an identifier the template does not match each give their own error; after a match, a remap error is returned as is, and otherwise the result or error of getTerraformFor on the remapped identifier is returned as is |
| Expander.NodeTerraform | internal/pkg/expanders/tfimport.go:408-483 | a set-up failure changes nothing; a cached type goes straight to the import; an uncached node is resolved, the answer is cached (even `""`) and imported; a resolution error is returned with the node untouched; only the cached type ever changes on the node |
| Expander.HasActions | internal/pkg/expanders/tfimport.go:246-259 | the answer is yes exactly when the type resolves to a non-empty name, which is then cached; a resolution error is returned as the resolver gave it; the node is unchanged otherwise |
| Expander.HeadText | internal/pkg/expanders/tfimport.go:341-345 | a failed node writes `\n#Error: <err>`, a successful one `\n<response>` |
| Expander.FilterType | internal/pkg/expanders/tfimport.go:373-376 | children are filtered with the node's cached type, or with the crawl's starting type when none is cached |
| Expander.Crawl | internal/pkg/expanders/tfimport.go:336-406 | the text is the node's own fragment, then at depth 0 nothing, after an expansion error `#Error expanding`, and otherwise the child loop over the expanded children filtered with the node's cached type (or the crawl's starting type); the expander state handed to the next sibling is the node action's state at depth 0 or after an expansion error, and the child loop's state otherwise |
| Expander.CrawlChildren | internal/pkg/expanders/tfimport.go:361-395 | an empty child list writes nothing and leaves the expander state unchanged |
| Expander.ExecuteAction | internal/pkg/expanders/tfimport.go:310-335 | dispatch on `ActionID`: GetTerraform needs a cached type and runs the node action on the parent; GetTerraformRecursive crawls the parent from depth 50 with fallback type `""`; empty and unknown ids are errors; the expander state afterwards is the node action's or the crawl's |
| Expander.ContainerWithoutAccountFailsImport | internal/pkg/expanders/tfimport.go:455-466 | a storage container whose identifier captures no account name fails with the remap's error, and the provider is never asked |
| Expander.OtherTypeImportsRebuiltId | internal/pkg/expanders/tfimport.go:455-474 | any other matched type imports under its rebuilt identifier, and a build error is the result |
| Expander.NodeTerraformIdempotent | internal/pkg/expanders/tfimport.go:419-432 | running the node action again on the node and state it left gives the same outcome and changes nothing, within one environment (the probe and the provider answer the same on every call) |
| Expander.CachedTypeSkipsResolution | internal/pkg/expanders/tfimport.go:422-432 | with a type cached, the outcome depends neither on the VM probe nor on the table order |
| Expander.HasActionsCacheTransparent | internal/pkg/expanders/tfimport.go:254-258 | the type HasActions caches does not change the node action's outcome |
| Expander.HasActionsThenNoProbe | internal/pkg/expanders/tfimport.go:257 | after HasActions answers yes, the node action no longer consults the probe |
| Expander.LazyInitTransparent | internal/pkg/expanders/tfimport.go:154-157 | when set-up succeeds, a fresh expander behaves as one whose provider is already up |
| Expander.CrawlDepthZeroIgnoresTree | internal/pkg/expanders/tfimport.go:347 | at depth 0 the tree is never expanded |
| Expander.CrawlChildrenAppend | internal/pkg/expanders/tfimport.go:361-395 | child fragments are appended in child order, the expander state threaded through |
| Expander.IgnoredChildSkipped | internal/pkg/expanders/tfimport.go:361-388 | an ignored child contributes no text and is not crawled |
| Expander.KeptChildCrawled | internal/pkg/expanders/tfimport.go:389-394 | a kept child contributes its own crawl's text and leaves its crawl's expander state |
| Expander.RecursiveActionNeverFails | internal/pkg/expanders/tfimport.go:324-325 | the recursive action always answers with text starting with a newline, never with an error |
| Expander.UntypedNodeFallsBackToRootType | internal/pkg/expanders/tfimport.go:373-389 | in a crawl started with `""`, a node whose type stays unknown filters its children with parent type `""` |
| Expander.AllIgnoredWritesNothing | internal/pkg/expanders/tfimport.go:361-388 | children the rules all skip write nothing and leave the state unchanged |
| Expander.ContainerPathSkippedInCrawl | internal/pkg/expanders/tfimport.go:373-388 | during a crawl, a storage container's child matched by the container-path template adds no text and is not crawled |

## Left out

- LocalName: cty panics when `name` is not a known string or the state is not an object. These panics are reported as `Err("panic: ...")` results instead of stopping the program.
- PrintState: the nil-block dereference for a type without a schema is reported as an error result in the same way.
- ExecuteAction: an action node without a parent makes the source dereference nil. The model reports an error.
- ExecuteAction: the `SourceDescription`, `IsPrimaryResponse` and `ResponseType` fields are constants and are not modelled.
- `GetAttr` of an attribute the object does not have panics in cty. The model reads it as null.
- cty typed nulls are not distinguished from untyped ones. A null of object or collection type is treated as neither, so it writes no nested block. cty would take the object or iterator branch and then panic on it.
- A cty number is a real. Lists, sets, tuples and maps are one iterable kind, holding their elements in cty's iteration order.
- `%q` formatting: `Quote` only adds double quotes. Go's escaping of special characters is not modelled.
- hclwrite byte-level formatting is the `render` oracle. The never-failing `WriteTo` on a byte buffer is not modelled.
- Tracing spans are not modelled.
- `endpoints.Match`/`BuildURL` are the `Registry` oracle; their internals are not part of this model.
- The parse of the constant `/{containerName}` template at line 101 is assumed to succeed, so its error return is not modelled.
- EnsureProvider: home-directory lookup, `MkdirAll`, download and plugin handshake are file-system and process I/O. They are one fixed outcome per environment (`initError`), so a failed set-up fails the same way on every retry.
- Provider calls (`GetSchema`, `ImportResourceState`, `ReadResource`) are the `Provider` oracle. Their diagnostics are not read by the source and are not modelled.
- `armclient.DoRequest` is the `probe` oracle, which returns the body already decoded or the decoder's error. The JSON text decoder itself is not modelled.
- Go map iteration is fixed to one order per environment (the type table) or per schema (block types). Lemmas quantify over those orders rather than modelling randomness.
- `remainingDepth` is a natural number. The source only ever starts it at 50 and calls children while it is positive.
- Metadata changes made to child nodes during a crawl are not returned, since the crawl's caller never sees those nodes again. The root's are returned.
- `ListActions` builds UI nodes; it is not part of this model. Neither are `NewTerraformImportExpander`, `setClient` or `Name`.

=== FILE: expander.dfy ===
/** The expander itself (internal/pkg/expanders/tfimport.go, lines 154-182 and
    245-483): lazy provider set-up, the per-node action with its metadata cache,
    the action dispatch, and the depth-limited crawl of the resource tree. */
module Expander {
  import opened Results
  import opened Strings
  import opened Json
  import opened Templates
  import opened Tables
  import opened Resolver
  import opened IgnoreRules
  import opened Remap
  import opened Terraform
  import opened ImportRead

  /** The metadata key the resolved type is cached under. */
  const TypeKey := "TerraformImportExpander_ResourceTypeName"
  const ActionKey := "ActionID"
  const GetTerraform := "GetTerraform"
  const GetTerraformRecursive := "GetTerraformRecursive"

  /** The depth the recursive action starts with. */
  const CrawlDepth: nat := 50

  /** A tree node: its resource identifier, its metadata, and (for an action node)
      the node the action belongs to. */
  datatype Node = Node(id: string, metadata: map<string, string>, parent: Option<Node>)

  /** Reading a Go map of strings: a missing key (or a nil map) reads as "". */
  function Meta(n: Node, key: string): string {
    if key in n.metadata then n.metadata[key] else ""
  }

  /** Whatever the expander consults but does not own: the tables, the order Go
      visits the type table in, the template engine, the ARM GET, the outcome of
      provider set-up, the provider, the HCL printer and the tree's own expansion. */
  datatype Env = Env(
    cfg: Config,
    order: seq<string>,
    reg: Registry,
    probe: string -> Result<Body>,
    initError: Option<string>,
    provider: Provider,
    render: OutBlock -> string,
    expand: Node -> Result<seq<Node>>)

  /** The expander's own state: whether `tfProvider` is set. */
  datatype ExpanderState = ExpanderState(providerReady: bool)

  /** The outcome of an action, the expander's state afterwards, and the node as the
      action left it (its metadata may have gained the cached type). */
  datatype Step = Step(result: Result<string>, state: ExpanderState, node: Node)

  /** ensureTfProviderInitialized: set up once, and try again on the next call
      after a failure. */
  function EnsureProvider(env: Env, st: ExpanderState): (r: Result<ExpanderState>)
    ensures st.providerReady ==> r == Ok(st)
    ensures !st.providerReady && env.initError.Some? ==> r == Err(env.initError.value)
    ensures r.Ok? ==> r.value.providerReady
    ensures !st.providerReady && env.initError.None? ==> r == Ok(ExpanderState(true))
  {
    if st.providerReady then Ok(st)
    else
      match env.initError
      case Some(e) => Err(e)
      case None => Ok(ExpanderState(true))
  }

  function WithType(n: Node, t: string): (r: Node)
    ensures Meta(r, TypeKey) == t && r.id == n.id && r.parent == n.parent
    ensures forall k :: k != TypeKey ==> Meta(r, k) == Meta(n, k)
  {
    n.(metadata := n.metadata[TypeKey := t])
  }

  /** The part of getTerraformForNode after the type is known: look up the type's
      template, match the node's identifier, rebuild the import identifier and ask
      the provider. */
  function TerraformForType(env: Env, id: string, t: string): (r: Result<string>)
    ensures t == "" ==> r == Err("No ResourceTypeName for " + Quote(id))
    ensures t != "" && t !in env.cfg.types ==> r == Err("Endpoint not found for resourceTypeName " + Quote(t))
    ensures t != "" && t in env.cfg.types && !env.reg.Matches(env.cfg.types[t], id)
            ==> r == Err("Failed to match resource type name")
    ensures r.Ok? ==> t in env.cfg.types && env.reg.Matches(env.cfg.types[t], id)
                      && ImportId(env.cfg, env.reg, t, env.cfg.types[t], env.reg.matchId(env.cfg.types[t], id).value).Ok?
                      && r == TerraformFor(env.provider, env.render,
                                           ImportId(env.cfg, env.reg, t, env.cfg.types[t], env.reg.matchId(env.cfg.types[t], id).value).value, t)
    ensures t != "" && t in env.cfg.types && env.reg.Matches(env.cfg.types[t], id)
            ==> var imported := ImportId(env.cfg, env.reg, t, env.cfg.types[t], env.reg.matchId(env.cfg.types[t], id).value);
                r == (if imported.Err? then Err(imported.error) else TerraformFor(env.provider, env.render, imported.value, t))
  {
    if t == "" then Err("No ResourceTypeName for " + Quote(id))
    else if t !in env.cfg.types then Err("Endpoint not found for resourceTypeName " + Quote(t))
    else
      var endpoint := env.cfg.types[t];
      match env.reg.matchId(endpoint, id)
      case None => Err("Failed to match resource type name")
      case Some(values) =>
        match ImportId(env.cfg, env.reg, t, endpoint, values)
        case Err(e) => Err(e)
        case Ok(importId) => TerraformFor(env.provider, env.render, importId, t)
  }

  /** getTerraformForNode: provider first, then the cached type or a fresh
      resolution (cached even when it is ""), then the import. */
  function NodeTerraform(env: Env, st: ExpanderState, node: Node): (r: Step)
    ensures r.node.id == node.id && r.node.parent == node.parent
    ensures forall k :: k != TypeKey ==> Meta(r.node, k) == Meta(node, k)
    ensures Meta(node, TypeKey) != "" ==> Meta(r.node, TypeKey) == Meta(node, TypeKey)
    ensures st.providerReady ==> r.state == st
    ensures !st.providerReady && env.initError.Some?
            ==> r == Step(Err(env.initError.value), st, node)
    ensures r.result.Ok? ==> r.state.providerReady && Meta(r.node, TypeKey) != ""
                             && r.result == TerraformForType(env, node.id, Meta(r.node, TypeKey))
    ensures EnsureProvider(env, st).Ok? && Meta(node, TypeKey) != ""
            ==> r == Step(TerraformForType(env, node.id, Meta(node, TypeKey)), EnsureProvider(env, st).value, node)
    ensures EnsureProvider(env, st).Ok? && Meta(node, TypeKey) == ""
            && ResolveType(env.cfg, env.order, env.reg, env.probe, node.id).Err?
            ==> r == Step(Err(ResolveType(env.cfg, env.order, env.reg, env.probe, node.id).error), EnsureProvider(env, st).value, node)
    ensures EnsureProvider(env, st).Ok? && Meta(node, TypeKey) == ""
            && ResolveType(env.cfg, env.order, env.reg, env.probe, node.id).Ok?
            ==> r == Step(TerraformForType(env, node.id, ResolveType(env.cfg, env.order, env.reg, env.probe, node.id).value),
                          EnsureProvider(env, st).value,
                          WithType(node, ResolveType(env.cfg, env.order, env.reg, env.probe, node.id).value))
  {
    match EnsureProvider(env, st)
    case Err(e) => Step(Err(e), st, node)
    case Ok(ready) =>
      var cached := Meta(node, TypeKey);
      if cached != "" then Step(TerraformForType(env, node.id, cached), ready, node)
      else
        match ResolveType(env.cfg, env.order, env.reg, env.probe, node.id)
        case Err(e) => Step(Err(e), ready, node)
        case Ok(t) => Step(TerraformForType(env, node.id, t), ready, WithType(node, t))
  }

  /** A storage container whose identifier captures no account name fails with
      the remap's own error: the provider is never asked. */
  lemma ContainerWithoutAccountFailsImport(env: Env, id: string, values: map<string, string>)
    requires env.cfg.overrides == Overrides
    requires StorageContainer in env.cfg.types && env.cfg.types[StorageContainer] == ContainerTemplate
    requires env.reg.matchId(ContainerTemplate, id) == Some(values)
    requires "accountName" !in values
    requires env.reg.build(ContainerPathTemplate, values).Ok?
    ensures TerraformForType(env, id, StorageContainer) == Err("accountName not found in match values")
  {
  }

  /** Any other matched type imports under its rebuilt identifier: a build error
      is the result, and otherwise the result is the provider's import of it. */
  lemma OtherTypeImportsRebuiltId(env: Env, id: string, t: string)
    requires env.cfg.overrides == Overrides
    requires t != "" && t != StorageContainer && t in env.cfg.types
    requires env.reg.Matches(env.cfg.types[t], id)
    ensures var built := env.reg.build(env.cfg.types[t], env.reg.matchId(env.cfg.types[t], id).value);
            TerraformForType(env, id, t)
              == (if built.Err? then Err(built.error) else TerraformFor(env.provider, env.render, built.value, t))
  {
  }

  /** HasActions: resolve the type afresh (the cache is not read here) and cache
      it when there is one. */
  function HasActions(env: Env, node: Node): (r: (Result<bool>, Node))
    ensures r.0.Ok? <==> ResolveType(env.cfg, env.order, env.reg, env.probe, node.id).Ok?
    ensures ResolveType(env.cfg, env.order, env.reg, env.probe, node.id).Err?
            ==> r.0 == Err(ResolveType(env.cfg, env.order, env.reg, env.probe, node.id).error)
    ensures r.0 == Ok(true) <==> ResolveType(env.cfg, env.order, env.reg, env.probe, node.id).Ok?
                                 && ResolveType(env.cfg, env.order, env.reg, env.probe, node.id).value != ""
    ensures r.0 == Ok(true) ==> r.1 == WithType(node, ResolveType(env.cfg, env.order, env.reg, env.probe, node.id).value)
    ensures r.0 != Ok(true) ==> r.1 == node
  {
    match ResolveType(env.cfg, env.order, env.reg, env.probe, node.id)
    case Err(e) => (Err(e), node)
    case Ok(t) => if t == "" then (Ok(false), node) else (Ok(true), WithType(node, t))
  }

  /** The text a crawl writes for one node, and what it leaves behind. Crawl
      results never carry an error. */
  datatype Crawled = Crawled(text: string, state: ExpanderState, node: Node)

  /** The fragment for the node itself. */
  function HeadText(r: Result<string>): (s: string)
    ensures r.Err? ==> s == "\n#Error: " + r.error
    ensures r.Ok? ==> s == "\n" + r.value
  {
    match r
    case Err(e) => "\n#Error: " + e
    case Ok(t) => "\n" + t
  }

  /** The type a node's children are filtered with: its cached type, or the type
      the crawl was started with when it has none. */
  function FilterType(n: Node, last: string): (r: string)
    ensures Meta(n, TypeKey) != "" ==> r == Meta(n, TypeKey)
    ensures Meta(n, TypeKey) == "" ==> r == last
  {
    if Meta(n, TypeKey) != "" then Meta(n, TypeKey) else last
  }

  /** getTerraformForNodeRecursive. Children are filtered with the type cached on
      this node, or `last` when there is none, and are crawled with the same
      `last`. */
  function Crawl(env: Env, st: ExpanderState, node: Node, depth: nat, last: string): (r: Crawled)
    ensures HasPrefix(r.text, HeadText(NodeTerraform(env, st, node).result))
    ensures r.node == NodeTerraform(env, st, node).node
    ensures depth == 0 ==> r.text == HeadText(NodeTerraform(env, st, node).result)
    ensures depth == 0 || env.expand(NodeTerraform(env, st, node).node).Err?
            ==> r.state == NodeTerraform(env, st, node).state
    ensures depth > 0 && env.expand(NodeTerraform(env, st, node).node).Err?
            ==> r.text == HeadText(NodeTerraform(env, st, node).result) + "\n#Error expanding " + Quote(node.id)
                          + ": " + env.expand(NodeTerraform(env, st, node).node).error
    ensures depth > 0 && env.expand(NodeTerraform(env, st, node).node).Ok?
            ==> var s := NodeTerraform(env, st, node);
                var c := CrawlChildren(env, s.state, env.expand(s.node).value, depth - 1, last, FilterType(s.node, last));
                r.text == HeadText(s.result) + c.0 && r.state == c.1
    decreases depth, 1
  {
    var s := NodeTerraform(env, st, node);
    var head := HeadText(s.result);
    if depth == 0 then Crawled(head, s.state, s.node)
    else
      match env.expand(s.node)
      case Err(e) => Crawled(head + "\n#Error expanding " + Quote(node.id) + ": " + e, s.state, s.node)
      case Ok(children) =>
        var c := CrawlChildren(env, s.state, children, depth - 1, last, FilterType(s.node, last));
        Crawled(head + c.0, c.1, s.node)
  }

  /** The loop over the children of one node. */
  function CrawlChildren(env: Env, st: ExpanderState, children: seq<Node>, depth: nat, last: string, parentType: string): (r: (string, ExpanderState))
    ensures |children| == 0 ==> r == ("", st)
    decreases depth + 1, 0, |children|
  {
    if |children| == 0 then ("", st)
    else
      var child := children[0];
      if Ignored(env.cfg, env.reg, child.id, parentType) then
        CrawlChildren(env, st, children[1..], depth, last, parentType)
      else
        var c := Crawl(env, st, child, depth, last);
        var rest := CrawlChildren(env, c.state, children[1..], depth, last, parentType);
        (c.text + rest.0, rest.1)
  }

  /** ExecuteAction on an action node, whose parent is the node it acts on. A
      missing parent is dereferenced by the source; the model reports it. */
  function ExecuteAction(env: Env, st: ExpanderState, item: Node): (r: Step)
    ensures Meta(item, ActionKey) == GetTerraform && Meta(item, TypeKey) == ""
            ==> r == Step(Err("ResourceTypeName not set"), st, item)
    ensures Meta(item, ActionKey) == "" ==> r == Step(Err("ActionID metadata not set: " + Quote(item.id)), st, item)
    ensures Meta(item, ActionKey) !in {"", GetTerraform, GetTerraformRecursive}
            ==> r == Step(Err("Unhandled ActionID: " + Quote(Meta(item, ActionKey))), st, item)
    ensures Meta(item, ActionKey) == GetTerraform && Meta(item, TypeKey) != "" && item.parent.Some?
            ==> r.result == NodeTerraform(env, st, item.parent.value).result
    ensures Meta(item, ActionKey) == GetTerraformRecursive && item.parent.Some?
            ==> r.result == Ok(Crawl(env, st, item.parent.value, CrawlDepth, "").text)
    ensures Meta(item, ActionKey) == GetTerraform && Meta(item, TypeKey) != "" && item.parent.Some?
            ==> r.state == NodeTerraform(env, st, item.parent.value).state
    ensures Meta(item, ActionKey) == GetTerraformRecursive && item.parent.Some?
            ==> r.state == Crawl(env, st, item.parent.value, CrawlDepth, "").state
    ensures r.node.id == item.id && r.node.metadata == item.metadata
  {
    var action := Meta(item, ActionKey);
    if action == GetTerraform then
      if Meta(item, TypeKey) == "" then Step(Err("ResourceTypeName not set"), st, item)
      else
        match item.parent
        case None => Step(Err("panic: runtime error: invalid memory address or nil pointer dereference"), st, item)
        case Some(p) =>
          var s := NodeTerraform(env, st, p);
          Step(s.result, s.state, item.(parent := Some(s.node)))
    else if action == GetTerraformRecursive then
      match item.parent
      case None => Step(Err("panic: runtime error: invalid memory address or nil pointer dereference"), st, item)
      case Some(p) =>
        var c := Crawl(env, st, p, CrawlDepth, "");
        Step(Ok(c.text), c.state, item.(parent := Some(c.node)))
    else if action == "" then Step(Err("ActionID metadata not set: " + Quote(item.id)), st, item)
    else Step(Err("Unhandled ActionID: " + Quote(action)), st, item)
  }

  /** Running the node action twice changes nothing: the second run finds the
      provider ready and the type cached (or resolves the same type again). */
  lemma NodeTerraformIdempotent(env: Env, st: ExpanderState, node: Node)
    ensures var s := NodeTerraform(env, st, node);
            NodeTerraform(env, s.state, s.node) == s
  {
    var s := NodeTerraform(env, st, node);
    if EnsureProvider(env, st).Ok? && Meta(node, TypeKey) == "" {
      var res := ResolveType(env.cfg, env.order, env.reg, env.probe, node.id);
      if res.Ok? && res.value == "" {
        assert WithType(WithType(node, ""), "") == WithType(node, "");
      }
    }
  }

  /** With a type already cached, the node action neither probes the VM nor scans
      the type table: the outcome does not depend on either. */
  lemma CachedTypeSkipsResolution(env: Env, st: ExpanderState, node: Node, probe: string -> Result<Body>, order: seq<string>)
    requires Meta(node, TypeKey) != ""
    ensures NodeTerraform(env, st, node) == NodeTerraform(env.(probe := probe, order := order), st, node)
  {
  }

  /** Caching the type in HasActions is transparent: the node action gives the
      same outcome on the annotated node as on the bare one. */
  lemma HasActionsCacheTransparent(env: Env, st: ExpanderState, node: Node)
    requires Meta(node, TypeKey) == ""
    ensures NodeTerraform(env, st, HasActions(env, node).1).result == NodeTerraform(env, st, node).result
  {
  }

  /** After HasActions answers yes, the node action takes the cached type and
      never calls the probe again. */
  lemma HasActionsThenNoProbe(env: Env, st: ExpanderState, node: Node, probe: string -> Result<Body>)
    requires HasActions(env, node).0 == Ok(true)
    ensures NodeTerraform(env, st, HasActions(env, node).1) == NodeTerraform(env.(probe := probe), st, HasActions(env, node).1)
  {
    CachedTypeSkipsResolution(env, st, HasActions(env, node).1, probe, env.order);
  }

  /** Lazy set-up is transparent when it succeeds: a fresh expander gives the
      same outcome as one whose provider is already up, and ends up ready. */
  lemma LazyInitTransparent(env: Env, node: Node)
    requires env.initError.None?
    ensures NodeTerraform(env, ExpanderState(false), node) == NodeTerraform(env, ExpanderState(true), node)
  {
  }

  /** A crawl at depth zero writes only the node's own text: the tree is never
      expanded. */
  lemma CrawlDepthZeroIgnoresTree(env: Env, st: ExpanderState, node: Node, last: string, expand: Node -> Result<seq<Node>>)
    ensures Crawl(env, st, node, 0, last) == Crawl(env.(expand := expand), st, node, 0, last)
  {
  }

  /** The child loop over two runs of children is the loop over the first, then
      over the second from the state the first left. */
  lemma {:induction false} CrawlChildrenAppend(env: Env, st: ExpanderState, a: seq<Node>, b: seq<Node>, depth: nat, last: string, parentType: string)
    ensures var ca := CrawlChildren(env, st, a, depth, last, parentType);
            var cb := CrawlChildren(env, ca.1, b, depth, last, parentType);
            CrawlChildren(env, st, a + b, depth, last, parentType) == (ca.0 + cb.0, cb.1)
    decreases |a|
  {
    if |a| == 0 {
      assert a + b == b;
      var cb := CrawlChildren(env, st, b, depth, last, parentType);
      assert "" + cb.0 == cb.0;
    } else {
      assert (a + b)[0] == a[0];
      assert (a + b)[1..] == a[1..] + b;
      var child := a[0];
      if Ignored(env.cfg, env.reg, child.id, parentType) {
        CrawlChildrenAppend(env, st, a[1..], b, depth, last, parentType);
      } else {
        var c := Crawl(env, st, child, depth, last);
        CrawlChildrenAppend(env, c.state, a[1..], b, depth, last, parentType);
        var ca := CrawlChildren(env, c.state, a[1..], depth, last, parentType);
        var cb := CrawlChildren(env, ca.1, b, depth, last, parentType);
        assert c.text + (ca.0 + cb.0) == (c.text + ca.0) + cb.0;
      }
    }
  }

  /** An ignored child contributes no text and costs no call. */
  lemma IgnoredChildSkipped(env: Env, st: ExpanderState, child: Node, rest: seq<Node>, depth: nat, last: string, parentType: string)
    requires Ignored(env.cfg, env.reg, child.id, parentType)
    ensures CrawlChildren(env, st, [child] + rest, depth, last, parentType) == CrawlChildren(env, st, rest, depth, last, parentType)
  {
    assert ([child] + rest)[0] == child && ([child] + rest)[1..] == rest;
  }

  /** A child that is kept contributes its own crawl's text, in place. */
  lemma KeptChildCrawled(env: Env, st: ExpanderState, child: Node, depth: nat, last: string, parentType: string)
    requires !Ignored(env.cfg, env.reg, child.id, parentType)
    ensures CrawlChildren(env, st, [child], depth, last, parentType).0 == Crawl(env, st, child, depth, last).text
    ensures CrawlChildren(env, st, [child], depth, last, parentType).1 == Crawl(env, st, child, depth, last).state
  {
    assert [child][0] == child && [child][1..] == [];
    var t := Crawl(env, st, child, depth, last).text;
    assert t + "" == t;
  }

  /** The recursive action always answers with text: failures of single nodes
      and of expansions are written into the text instead. */
  lemma RecursiveActionNeverFails(env: Env, st: ExpanderState, item: Node)
    requires Meta(item, ActionKey) == GetTerraformRecursive && item.parent.Some?
    ensures ExecuteAction(env, st, item).result.Ok?
    ensures HasPrefix(ExecuteAction(env, st, item).result.value, "\n")
  {
    var s := NodeTerraform(env, st, item.parent.value);
    var c := Crawl(env, st, item.parent.value, CrawlDepth, "");
    var h := HeadText(s.result);
    assert HasPrefix(h, "\n");
    assert h <= c.text;
  }

  /** The fallback type is the one the crawl started with, never the parent's:
      in a crawl started by the action (`last` is ""), a node whose own type stays
      unknown filters its children with no ignore templates at all. */
  lemma UntypedNodeFallsBackToRootType(env: Env, st: ExpanderState, node: Node, depth: nat, children: seq<Node>)
    requires depth > 0
    requires Meta(NodeTerraform(env, st, node).node, TypeKey) == ""
    requires env.expand(NodeTerraform(env, st, node).node) == Ok(children)
    ensures Crawl(env, st, node, depth, "").text
            == HeadText(NodeTerraform(env, st, node).result)
               + CrawlChildren(env, NodeTerraform(env, st, node).state, children, depth - 1, "", "").0
  {
  }

  /** During a crawl, a storage container's children that its container-path
      template matches are skipped: they add no text and are not visited. */
  lemma ContainerPathSkippedInCrawl(env: Env, st: ExpanderState, node: Node, depth: nat, last: string, child: Node, rest: seq<Node>)
    requires env.cfg.ignore == IgnoreTable
    requires depth > 0
    requires Meta(NodeTerraform(env, st, node).node, TypeKey) == StorageContainer
    requires env.expand(NodeTerraform(env, st, node).node) == Ok([child] + rest)
    requires env.reg.Matches(ContainerChildTemplate, child.id)
    ensures Crawl(env, st, node, depth, last).text
            == HeadText(NodeTerraform(env, st, node).result)
               + CrawlChildren(env, NodeTerraform(env, st, node).state, rest, depth - 1, last, StorageContainer).0
  {
    ContainerChildSkipped(env.cfg, env.reg, child.id);
    IgnoredChildSkipped(env, NodeTerraform(env, st, node).state, child, rest, depth - 1, last, StorageContainer);
  }

  /** Children the rules all skip write nothing and leave the state as it was. */
  lemma {:induction false} AllIgnoredWritesNothing(env: Env, st: ExpanderState, children: seq<Node>, depth: nat, last: string, parentType: string)
    requires forall i :: 0 <= i < |children| ==> Ignored(env.cfg, env.reg, children[i].id, parentType)
    ensures CrawlChildren(env, st, children, depth, last, parentType) == ("", st)
    decreases |children|
  {
    if |children| > 0 {
      AllIgnoredWritesNothing(env, st, children[1..], depth, last, parentType);
    }
  }
}

=== FILE: ignore.dfy ===
/** The child filter of the recursive crawl (internal/pkg/expanders/tfimport.go,
    lines 68-89 for the tables, 361-388 for the loop): a child is skipped when its
    identifier ends with a global suffix, or when it matches an ignore template
    registered for the type of the node being expanded. */
module IgnoreRules {
  import opened Strings
  import opened Templates
  import opened Tables

  /** The suffix loop, breaking at the first suffix found. */
  function EndsWithAny(id: string, suffixes: seq<string>): (r: bool)
    ensures r <==> exists i :: 0 <= i < |suffixes| && HasSuffix(id, suffixes[i])
    decreases |suffixes|
  {
    if |suffixes| == 0 then false
    else if HasSuffix(id, suffixes[0]) then true
    else EndsWithAny(id, suffixes[1..])
  }

  /** The template loop over the rules registered for one parent type. */
  function MatchesAny(reg: Registry, id: string, rules: seq<Template>): (r: bool)
    ensures r <==> exists i :: 0 <= i < |rules| && reg.Matches(rules[i], id)
    decreases |rules|
  {
    if |rules| == 0 then false
    else if reg.Matches(rules[0], id) then true
    else MatchesAny(reg, id, rules[1..])
  }

  /** `endpointsToIgnore[parentType]`: a type without an entry has no rules. */
  function RulesFor(cfg: Config, parentType: string): (r: seq<Template>)
    ensures parentType in cfg.ignore ==> r == cfg.ignore[parentType]
    ensures parentType !in cfg.ignore ==> r == []
  {
    if parentType in cfg.ignore then cfg.ignore[parentType] else []
  }

  function Ignored(cfg: Config, reg: Registry, id: string, parentType: string): (r: bool)
    ensures r <==> (exists i :: 0 <= i < |cfg.suffixes| && HasSuffix(id, cfg.suffixes[i]))
                   || (exists i :: 0 <= i < |RulesFor(cfg, parentType)| && reg.Matches(RulesFor(cfg, parentType)[i], id))
  {
    EndsWithAny(id, cfg.suffixes) || MatchesAny(reg, id, RulesFor(cfg, parentType))
  }

  /** Suffix rules win whatever the parent type and whatever the templates say. */
  lemma SuffixWins(cfg: Config, reg: Registry, id: string, parentType: string, i: nat)
    requires i < |cfg.suffixes| && HasSuffix(id, cfg.suffixes[i])
    ensures Ignored(cfg, reg, id, parentType)
  {
  }

  /** A parent type with no registered rules filters by suffix only. */
  lemma UnlistedParentFiltersBySuffixOnly(cfg: Config, reg: Registry, id: string, parentType: string)
    requires parentType !in cfg.ignore
    ensures Ignored(cfg, reg, id, parentType) == EndsWithAny(id, cfg.suffixes)
  {
  }

  lemma EndsWithOwnSuffix(p: string, suffix: string)
    ensures HasSuffix(p + suffix, suffix)
  {
    assert (p + suffix)[|p|..] == suffix;
  }

  /** A suffix fixes the characters at the end of the string. */
  lemma SuffixCharAt(s: string, suffix: string, k: nat)
    requires k < |suffix|
    ensures HasSuffix(s, suffix) ==> s[|s| - |suffix| + k] == suffix[k]
  {
    if HasSuffix(s, suffix) {
      assert s[|s| - |suffix|..][k] == s[|s| - |suffix| + k];
    }
  }

  /** With the shipped suffixes, a diagnostic-settings pseudo child is always
      skipped, whatever precedes the suffix. */
  lemma DiagnosticSettingsSkipped(cfg: Config, reg: Registry, parent: string, parentType: string)
    requires cfg.suffixes == IgnoreSuffixes
    ensures Ignored(cfg, reg, parent + "/<diagsettings>", parentType)
  {
    EndsWithOwnSuffix(parent, DiagSettingsSuffix);
  }

  /** One differing character, counted from the end, rules a suffix out. */
  lemma NotSuffixAt(s: string, suffix: string, k: nat)
    requires k < |suffix| <= |s| && s[|s| - |suffix| + k] != suffix[k]
    ensures !HasSuffix(s, suffix)
  {
    SuffixCharAt(s, suffix, k);
  }

  lemma NotSuffixLonger(s: string, suffix: string)
    requires |suffix| > |s|
    ensures !HasSuffix(s, suffix)
  {
  }

  /** The suffix loop answers no when every suffix is ruled out. */
  lemma {:induction false} EndsWithNone(id: string, suffixes: seq<string>)
    requires forall i :: 0 <= i < |suffixes| ==> !HasSuffix(id, suffixes[i])
    ensures !EndsWithAny(id, suffixes)
  {
  }

  /** Metrics spelled with a capital "M" in "Microsoft". */
  const CapitalMetricsId := "/providers/Microsoft.Insights/metrics"

  lemma CapitalMetricsIdChars()
    ensures |CapitalMetricsId| == 37 && CapitalMetricsId[36] == 's' && CapitalMetricsId[11] == 'M'
  {
  }

  lemma ShippedSuffixChars()
    ensures |DiagSettingsSuffix| == 15 && DiagSettingsSuffix[14] == '>'
    ensures |ActivityLogSuffix| == 14 && ActivityLogSuffix[13] == '>'
    ensures |DeploymentsSuffix| == 42 && |MetricDefinitionsSuffix| == 47
    ensures |MetricsSuffix| == 37 && MetricsSuffix[11] == 'm'
  {
  }

  /** The suffix test is case-sensitive: metrics spelled with a capital "M" in
      "Microsoft" is not one of the shipped suffixes, so under a parent with no
      ignore templates it is kept. */
  lemma SuffixesAreCaseSensitive(cfg: Config, reg: Registry, parentType: string)
    requires cfg.suffixes == IgnoreSuffixes
    requires parentType !in cfg.ignore
    ensures !Ignored(cfg, reg, CapitalMetricsId, parentType)
  {
    CapitalMetricsIdChars();
    ShippedSuffixChars();
    var id, ss := CapitalMetricsId, cfg.suffixes;
    forall i | 0 <= i < |ss|
      ensures !HasSuffix(id, ss[i])
    {
      if i == 0 {
        NotSuffixAt(id, DiagSettingsSuffix, 14);
      } else if i == 1 {
        NotSuffixAt(id, ActivityLogSuffix, 13);
      } else if i == 2 {
        NotSuffixLonger(id, DeploymentsSuffix);
      } else if i == 3 {
        NotSuffixAt(id, MetricsSuffix, 11);
      } else {
        NotSuffixLonger(id, MetricDefinitionsSuffix);
      }
    }
    EndsWithNone(id, ss);
  }

  /** Below a storage container, any child the container-path template matches is
      skipped. */
  lemma ContainerChildSkipped(cfg: Config, reg: Registry, id: string)
    requires cfg.ignore == IgnoreTable
    requires reg.Matches(ContainerChildTemplate, id)
    ensures Ignored(cfg, reg, id, StorageContainer)
  {
    assert RulesFor(cfg, StorageContainer)[0] == ContainerChildTemplate;
  }

  /** The crawl falls back to "" for a parent whose type is unknown; no rules are
      registered under "", so such a parent filters by suffix only. */
  lemma EmptyParentTypeFiltersBySuffixOnly(cfg: Config, reg: Registry, id: string)
    requires cfg.ignore == IgnoreTable
    ensures Ignored(cfg, reg, id, "") == EndsWithAny(id, cfg.suffixes)
  {
    assert "" !in IgnoreTable;
  }
}

=== FILE: importread.dfy ===
/** `getTerraformFor` (internal/pkg/expanders/tfimport.go, lines 485-521): import
    a resource by identifier, read back every resource the import produced, and
    print each one as a configuration block. The Terraform provider is an oracle. */
module ImportRead {
  import opened Results
  import opened Strings
  import opened Terraform
  import opened Serializer

  /** One entry of `ImportedResources`. */
  datatype Imported = Imported(typeName: string, state: Value)

  /** The provider plugin: its resource schemas, the import call (type, id), and the
      read call (type, prior state) giving the new state. Diagnostics the provider
      returns are not consulted by the source, so they are not modelled. */
  datatype Provider = Provider(
    schemas: map<string, Schema>,
    importState: (string, string) -> seq<Imported>,
    read: (string, Value) -> Value)

  /** `ResourceTypes[typeName].Block`: nil for a type without a schema. */
  function SchemaFor(p: Provider, typeName: string): (r: Option<Schema>)
    ensures r.Some? <==> typeName in p.schemas
    ensures r.Some? ==> r.value == p.schemas[typeName]
  {
    if typeName in p.schemas then Some(p.schemas[typeName]) else None
  }

  /** The loop body for one imported resource: read, reject a null state, print,
      and terminate the text with a newline. */
  function ReadOne(p: Provider, render: OutBlock -> string, id: string, res: Imported): (r: Result<string>)
    ensures p.read(res.typeName, res.state).Null? ==> r == Err("Null state on read for " + Quote(id))
    ensures r.Ok? <==> !p.read(res.typeName, res.state).Null?
                       && PrintState(p.read(res.typeName, res.state), res.typeName, SchemaFor(p, res.typeName)).Ok?
    ensures r.Ok? ==> r.value == render(PrintState(p.read(res.typeName, res.state), res.typeName, SchemaFor(p, res.typeName)).value) + "\n"
  {
    var state := p.read(res.typeName, res.state);
    if state.Null? then Err("Null state on read for " + Quote(id))
    else
      match PrintState(state, res.typeName, SchemaFor(p, res.typeName))
      case Err(e) => Err(e)
      case Ok(block) => Ok(render(block) + "\n")
  }

  /** The texts of a list of successes, joined in order. */
  function Joined(xs: seq<Result<string>>): string
    requires forall i :: 0 <= i < |xs| ==> xs[i].Ok?
    decreases |xs|
  {
    if |xs| == 0 then "" else xs[0].value + Joined(xs[1..])
  }

  /** A loop over fallible steps that stops at the first failure and otherwise
      concatenates their texts. */
  function Sequence(xs: seq<Result<string>>): (r: Result<string>)
    ensures r.Ok? <==> forall i :: 0 <= i < |xs| ==> xs[i].Ok?
    ensures r.Ok? ==> r.value == Joined(xs)
    ensures r.Err? ==> exists i :: 0 <= i < |xs| && xs[i] == Err(r.error) && forall j :: 0 <= j < i ==> xs[j].Ok?
    decreases |xs|
  {
    if |xs| == 0 then Ok("")
    else
      match xs[0]
      case Err(e) => Err(e)
      case Ok(text) =>
        assert forall i :: 1 <= i < |xs| ==> xs[1..][i - 1] == xs[i];
        match Sequence(xs[1..])
        case Err(e) => Err(e)
        case Ok(more) => Ok(text + more)
  }

  /** Sequencing of two fallible texts: the first failure wins, else the texts
      are joined. */
  function Then(a: Result<string>, b: Result<string>): Result<string> {
    match a
    case Err(e) => Err(e)
    case Ok(x) =>
      match b
      case Err(e) => Err(e)
      case Ok(y) => Ok(x + y)
  }

  lemma ThenAssociative(x: Result<string>, y: Result<string>, z: Result<string>)
    ensures Then(Then(x, y), z) == Then(x, Then(y, z))
  {
    if x.Ok? && y.Ok? && z.Ok? {
      assert (x.value + y.value) + z.value == x.value + (y.value + z.value);
    }
  }

  /** Running two batches of steps in one loop is running them one after the
      other; a failure in the first batch hides the second. */
  lemma {:induction false} SequenceAppend(xs: seq<Result<string>>, ys: seq<Result<string>>)
    ensures Sequence(xs + ys) == Then(Sequence(xs), Sequence(ys))
    decreases |xs|
  {
    if |xs| == 0 {
      assert xs + ys == ys;
      if Sequence(ys).Ok? {
        assert "" + Sequence(ys).value == Sequence(ys).value;
      }
    } else {
      assert (xs + ys)[0] == xs[0];
      assert (xs + ys)[1..] == xs[1..] + ys;
      SequenceAppend(xs[1..], ys);
      assert Sequence(xs) == Then(xs[0], Sequence(xs[1..]));
      assert Sequence(xs + ys) == Then(xs[0], Sequence(xs[1..] + ys));
      ThenAssociative(xs[0], Sequence(xs[1..]), Sequence(ys));
    }
  }

  /** The per-resource outcomes, in import order. */
  function Reads(p: Provider, render: OutBlock -> string, id: string, rs: seq<Imported>): (r: seq<Result<string>>)
    ensures |r| == |rs| && forall i :: 0 <= i < |rs| ==> r[i] == ReadOne(p, render, id, rs[i])
  {
    seq(|rs|, i requires 0 <= i < |rs| => ReadOne(p, render, id, rs[i]))
  }

  /** The loop over the imported resources, stopping at the first failure. */
  function Aggregate(p: Provider, render: OutBlock -> string, id: string, rs: seq<Imported>): (r: Result<string>)
    ensures r.Ok? <==> forall i :: 0 <= i < |rs| ==> ReadOne(p, render, id, rs[i]).Ok?
    ensures r.Ok? ==> r.value == Joined(Reads(p, render, id, rs))
    ensures r.Err? ==> exists i :: 0 <= i < |rs| && ReadOne(p, render, id, rs[i]) == Err(r.error)
                                   && forall j :: 0 <= j < i ==> ReadOne(p, render, id, rs[j]).Ok?
  {
    Sequence(Reads(p, render, id, rs))
  }

  /** getTerraformFor: import under `id`, then aggregate the imported resources. */
  function TerraformFor(p: Provider, render: OutBlock -> string, id: string, typeName: string): (r: Result<string>)
    ensures r.Ok? <==> forall i :: 0 <= i < |p.importState(typeName, id)| ==> ReadOne(p, render, id, p.importState(typeName, id)[i]).Ok?
    ensures r.Ok? ==> r.value == Joined(Reads(p, render, id, p.importState(typeName, id)))
  {
    Aggregate(p, render, id, p.importState(typeName, id))
  }

  /** An import that produces nothing (as when the provider reports an error the
      source ignores) yields empty text, not an error. */
  lemma NothingImportedIsEmpty(p: Provider, render: OutBlock -> string, id: string, typeName: string)
    requires p.importState(typeName, id) == []
    ensures TerraformFor(p, render, id, typeName) == Ok("")
  {
  }

  /** Aggregation over two batches of imported resources is the aggregation of
      the first followed by the second. */
  lemma AggregateAppend(p: Provider, render: OutBlock -> string, id: string, a: seq<Imported>, b: seq<Imported>)
    ensures Aggregate(p, render, id, a + b) == Then(Aggregate(p, render, id, a), Aggregate(p, render, id, b))
  {
    assert Reads(p, render, id, a + b) == Reads(p, render, id, a) + Reads(p, render, id, b);
    SequenceAppend(Reads(p, render, id, a), Reads(p, render, id, b));
  }

  /** A resource whose read comes back null fails the whole call once every
      resource before it printed. */
  lemma NullReadFails(p: Provider, render: OutBlock -> string, id: string, rs: seq<Imported>, i: nat)
    requires i < |rs| && p.read(rs[i].typeName, rs[i].state).Null?
    requires forall j :: 0 <= j < i ==> ReadOne(p, render, id, rs[j]).Ok?
    ensures Aggregate(p, render, id, rs) == Err("Null state on read for " + Quote(id))
  {
    var r := Aggregate(p, render, id, rs);
    var k :| 0 <= k < |rs| && ReadOne(p, render, id, rs[k]) == Err(r.error)
             && forall j :: 0 <= j < k ==> ReadOne(p, render, id, rs[j]).Ok?;
    assert k == i;
  }

  /** A single imported resource whose read succeeds prints as one
      `resource "<type>" "<name>"` block followed by a newline. */
  lemma SingleResource(p: Provider, render: OutBlock -> string, id: string, res: Imported, state: Value, block: Schema)
    requires p.read(res.typeName, res.state) == state
    requires res.typeName in p.schemas && p.schemas[res.typeName] == block
    requires LocalName(state).Ok?
    ensures Aggregate(p, render, id, [res])
            == Ok(render(OutBlock("resource", [res.typeName, LocalName(state).value], WriteBody(block, state))) + "\n")
  {
    assert !state.Null?;
    var x := ReadOne(p, render, id, res);
    assert Reads(p, render, id, [res]) == [x];
    assert [x][1..] == [];
    assert PrintState(state, res.typeName, SchemaFor(p, res.typeName)).value
           == OutBlock("resource", [res.typeName, LocalName(state).value], WriteBody(block, state));
    assert x.value + "" == x.value;
  }
}

=== FILE: json.dfy ===
/** The JSON values `encoding/json` produces when it decodes into `interface{}`, and
    the property walk `getJSONProperty` / `getJSONPropertyFromString` perform on them
    (internal/pkg/expanders/tfimport.go, lines 216-243). The text decoder itself is
    not modelled: a response body is given already decoded, or as the reason it
    failed to decode. */
module Json {
  import opened Results

  datatype Json =
    | JNull
    | JBool(b: bool)
    | JNumber(n: real)
    | JString(s: string)
    | JArray(items: seq<Json>)
    | JObject(fields: map<string, Json>)

  /** A response body: either text `json.Unmarshal` rejects, or a decoded document. */
  datatype Body = Malformed(reason: string) | Wellformed(doc: Json)

  /** getJSONProperty: follow `path` through nested objects. A missing key, or a
      value along the way that is not an object, gives null rather than an error. */
  function Lookup(data: Json, path: seq<string>): (r: Json)
    requires |path| > 0
    ensures !data.JObject? ==> r == JNull
    ensures data.JObject? && path[0] !in data.fields ==> r == JNull
    ensures data.JObject? && path[0] in data.fields && |path| == 1 ==> r == data.fields[path[0]]
    decreases |path|
  {
    match data
    case JObject(fields) =>
      if path[0] in fields then
        if |path| == 1 then fields[path[0]] else Lookup(fields[path[0]], path[1..])
      else JNull
    case _ => JNull
  }

  /** The word `encoding/json` uses for a JSON value's kind in its type errors. */
  function KindName(j: Json): string {
    match j
    case JNull => "null"
    case JBool(_) => "bool"
    case JNumber(_) => "number"
    case JString(_) => "string"
    case JArray(_) => "array"
    case JObject(_) => "object"
  }

  /** getJSONPropertyFromString: decode into `map[string]interface{}`, then walk.
      A top-level `null` decodes to a nil map (no error, so the walk finds nothing);
      any other non-object top level is a type error. */
  function LookupInBody(body: Body, path: seq<string>): (r: Result<Json>)
    requires |path| > 0
    ensures body.Malformed? ==> r == Err(body.reason)
    ensures body.Wellformed? && body.doc.JObject? ==> r == Ok(Lookup(body.doc, path))
    ensures body.Wellformed? && body.doc == JNull ==> r == Ok(JNull)
    ensures r.Err? <==> body.Malformed? || (!body.doc.JObject? && !body.doc.JNull?)
  {
    match body
    case Malformed(reason) => Err(reason)
    case Wellformed(doc) =>
      if doc.JObject? || doc.JNull? then Ok(Lookup(doc, path))
      else Err("json: cannot unmarshal " + KindName(doc) + " into Go value of type map[string]interface {}")
  }

  /** The smallest document in which `path` leads to `v`. */
  function Nest(path: seq<string>, v: Json): Json
    requires |path| > 0
    decreases |path|
  {
    if |path| == 1 then JObject(map[path[0] := v])
    else JObject(map[path[0] := Nest(path[1..], v)])
  }

  /** Walking a path through the document built along it finds the value put there. */
  lemma {:induction false} LookupNest(path: seq<string>, v: Json)
    requires |path| > 0
    ensures Lookup(Nest(path, v), path) == v
    decreases |path|
  {
    if |path| > 1 {
      LookupNest(path[1..], v);
    }
  }

  /** A walk along `p + q` is a walk along `p` followed by a walk along `q`: a
      null met part way (missing key or non-object) stays null to the end. */
  lemma {:induction false} LookupConcat(data: Json, p: seq<string>, q: seq<string>)
    requires |p| > 0 && |q| > 0
    ensures Lookup(data, p + q) == Lookup(Lookup(data, p), q)
    decreases |p|
  {
    assert (p + q)[0] == p[0];
    if data.JObject? && p[0] in data.fields {
      if |p| == 1 {
        assert (p + q)[1..] == q;
      } else {
        assert (p + q)[1..] == p[1..] + q;
        LookupConcat(data.fields[p[0]], p[1..], q);
      }
    }
  }
}

=== FILE: remap.dfy ===
/** The import-identifier remapping of `getTerraformForNode`
    (internal/pkg/expanders/tfimport.go, lines 91-114 and 455-466): the identifier
    handed to the provider's import call is rebuilt from the values the type's
    template captured, unless the type has an override. */
module Remap {
  import opened Results
  import opened Strings
  import opened Templates
  import opened Tables

  const BlobHost := ".blob.core.windows.net"

  /** The storage-container override: build "/<containerName>" from the captured
      values, then put it after the account's blob endpoint. */
  function BlobContainerId(reg: Registry, values: map<string, string>): (r: Result<string>)
    ensures reg.build(ContainerPathTemplate, values).Err? ==> r == reg.build(ContainerPathTemplate, values)
    ensures reg.build(ContainerPathTemplate, values).Ok? && "accountName" !in values
            ==> r == Err("accountName not found in match values")
    ensures reg.build(ContainerPathTemplate, values).Ok? && "accountName" in values
            ==> r == Ok("https://" + values["accountName"] + BlobHost + reg.build(ContainerPathTemplate, values).value)
  {
    match reg.build(ContainerPathTemplate, values)
    case Err(e) => Err(e)
    case Ok(path) =>
      if "accountName" in values then Ok("https://" + values["accountName"] + BlobHost + path)
      else Err("accountName not found in match values")
  }

  function ApplyOverride(o: Override, reg: Registry, values: map<string, string>): Result<string> {
    match o
    case BlobContainerUrl => BlobContainerId(reg, values)
  }

  /** The identifier for the import call of a resource of type `typeName` whose own
      identifier matched `endpoint` with captured `values`. */
  function ImportId(cfg: Config, reg: Registry, typeName: string, endpoint: Template, values: map<string, string>): (r: Result<string>)
    ensures typeName !in cfg.overrides ==> r == reg.build(endpoint, values)
    ensures typeName in cfg.overrides ==> r == ApplyOverride(cfg.overrides[typeName], reg, values)
  {
    if typeName in cfg.overrides then ApplyOverride(cfg.overrides[typeName], reg, values)
    else reg.build(endpoint, values)
  }

  /** Splits a blob-container URL back into account and container, the inverse of
      the override for account names without dots. */
  function ParseBlobUrl(url: string): Option<(string, string)> {
    if !HasPrefix(url, "https://") then None
    else
      var rest := url[|"https://"|..];
      match IndexOf(rest, '.')
      case None => None
      case Some(i) =>
        var tail := rest[i..];
        if HasPrefix(tail, BlobHost + "/") then Some((rest[..i], tail[|BlobHost + "/"|..]))
        else None
  }

  /** The override's URL parses back into the account and container it was made
      from, for account names without dots (storage account names have none). */
  lemma ParseBlobUrlRoundTrip(account: string, container: string)
    requires '.' !in account
    ensures ParseBlobUrl("https://" + account + BlobHost + "/" + container) == Some((account, container))
  {
    var url := "https://" + account + BlobHost + "/" + container;
    var sep := BlobHost + "/";
    var tail := sep + container;
    var rest := account + tail;
    assert url == "https://" + rest;
    assert HasPrefix(url, "https://");
    assert url[|"https://"|..] == rest;
    var i := |account|;
    assert rest[..i] == account;
    assert rest[i] == '.' by {
      assert tail[0] == BlobHost[0];
    }
    IndexOfFirst(rest, '.', i);
    assert rest[i..] == tail;
    assert HasPrefix(tail, sep);
    assert tail[|sep|..] == container;
  }

  /** With the shipped tables, a storage container in account A named C imports as
      https://A.blob.core.windows.net/C, and that URL gives back A and C. */
  lemma StorageContainerImportId(cfg: Config, reg: Registry, values: map<string, string>, account: string, container: string)
    requires cfg.overrides == Overrides
    requires "accountName" in values && values["accountName"] == account
    requires '.' !in account
    requires reg.build(ContainerPathTemplate, values) == Ok("/" + container)
    ensures ImportId(cfg, reg, StorageContainer, ContainerTemplate, values)
            == Ok("https://" + account + BlobHost + "/" + container)
    ensures ParseBlobUrl(ImportId(cfg, reg, StorageContainer, ContainerTemplate, values).value) == Some((account, container))
  {
    var front := "https://" + account + BlobHost;
    assert front + ("/" + container) == front + "/" + container;
    assert StorageContainer in cfg.overrides && cfg.overrides[StorageContainer] == BlobContainerUrl;
    ParseBlobUrlRoundTrip(account, container);
  }

  /** Without an accountName among the captured values the override fails. */
  lemma StorageContainerNeedsAccount(cfg: Config, reg: Registry, values: map<string, string>)
    requires cfg.overrides == Overrides
    requires "accountName" !in values
    requires reg.build(ContainerPathTemplate, values).Ok?
    ensures ImportId(cfg, reg, StorageContainer, ContainerTemplate, values) == Err("accountName not found in match values")
  {
  }

  /** Every other shipped type imports under its rebuilt identifier. */
  lemma OtherTypesUseBuild(cfg: Config, reg: Registry, typeName: string, endpoint: Template, values: map<string, string>)
    requires cfg.overrides == Overrides
    requires typeName != StorageContainer
    ensures ImportId(cfg, reg, typeName, endpoint, values) == reg.build(endpoint, values)
  {
  }
}

=== FILE: resolver.dfy ===
/** Resource-type resolution, `getResourceTypeNameFromResourceID`
    (internal/pkg/expanders/tfimport.go, lines 184-214): a virtual-machine probe
    first, then a scan of the type table. */
module Resolver {
  import opened Results
  import opened Json
  import opened Templates
  import opened Tables

  /** Where the probe body keeps the operating system of a VM. */
  const OsTypePath: seq<string> := ["properties", "storageProfile", "osDisk", "osType"]

  /** `for name, t := range table` returning the first name whose template matches.
      Go visits a map in no fixed order; `order` is the order of this visit. */
  function ScanTable(table: map<string, Template>, order: seq<string>, reg: Registry, id: string): (r: string)
    ensures r == "" || (r in table && r in order && reg.Matches(table[r], id))
    decreases |order|
  {
    if |order| == 0 then ""
    else if order[0] in table && reg.Matches(table[order[0]], id) then order[0]
    else ScanTable(table, order[1..], reg, id)
  }

  /** The visit order covers every table key (as a Go range does). */
  predicate Covers(order: seq<string>, table: map<string, Template>) {
    forall k :: k in table ==> k in order
  }

  /** The GET the VM probe issues. */
  function ProbeUrl(cfg: Config, id: string): string {
    id + "?api-version=" + cfg.vm.apiVersion
  }

  /** The osType the VM probe reads: the walk's result when the GET succeeded and
      the body decoded into an object (or null); None when either step failed. */
  function ProbedOs(cfg: Config, probe: string -> Result<Body>, id: string): (r: Option<Json>)
    ensures r.Some? <==> probe(ProbeUrl(cfg, id)).Ok? && LookupInBody(probe(ProbeUrl(cfg, id)).value, OsTypePath).Ok?
    ensures r.Some? && probe(ProbeUrl(cfg, id)).value.doc.JObject?
            ==> r.value == Lookup(probe(ProbeUrl(cfg, id)).value.doc, OsTypePath)
    ensures probe(ProbeUrl(cfg, id)) == Ok(Wellformed(JNull)) ==> r == Some(JNull)
    ensures r.Some? ==> r.value == LookupInBody(probe(ProbeUrl(cfg, id)).value, OsTypePath).value
  {
    match probe(ProbeUrl(cfg, id))
    case Err(_) => None
    case Ok(body) =>
      match LookupInBody(body, OsTypePath)
      case Err(_) => None
      case Ok(v) => Some(v)
  }

  /** Resolution of `id`: the VM probe reads `osType` from the body `probe` returns for
      the VM URL. A non-string (or missing) `osType` gives "" at once, while a string
      other than Windows or Linux falls through to the table scan. */
  function ResolveType(cfg: Config, order: seq<string>, reg: Registry, probe: string -> Result<Body>, id: string): (r: Result<string>)
    ensures !reg.Matches(cfg.vm, id) ==> r == Ok(ScanTable(cfg.types, order, reg, id))
    ensures reg.Matches(cfg.vm, id) && probe(ProbeUrl(cfg, id)).Err? ==> r == Err(probe(ProbeUrl(cfg, id)).error)
    ensures reg.Matches(cfg.vm, id) && probe(ProbeUrl(cfg, id)).Ok? && LookupInBody(probe(ProbeUrl(cfg, id)).value, OsTypePath).Err?
            ==> r == Err(LookupInBody(probe(ProbeUrl(cfg, id)).value, OsTypePath).error)
    ensures reg.Matches(cfg.vm, id) && ProbedOs(cfg, probe, id) == Some(JString("Windows")) ==> r == Ok(WindowsVm)
    ensures reg.Matches(cfg.vm, id) && ProbedOs(cfg, probe, id) == Some(JString("Linux")) ==> r == Ok(LinuxVm)
    ensures reg.Matches(cfg.vm, id) && ProbedOs(cfg, probe, id).Some? && !ProbedOs(cfg, probe, id).value.JString?
            ==> r == Ok("")
    ensures reg.Matches(cfg.vm, id) && ProbedOs(cfg, probe, id).Some? && ProbedOs(cfg, probe, id).value.JString?
            && ProbedOs(cfg, probe, id).value.s != "Windows" && ProbedOs(cfg, probe, id).value.s != "Linux"
            ==> r == Ok(ScanTable(cfg.types, order, reg, id))
    ensures r.Ok? ==> r.value == "" || r.value == WindowsVm || r.value == LinuxVm || r.value in cfg.types
  {
    if reg.Matches(cfg.vm, id) then
      match probe(ProbeUrl(cfg, id))
      case Err(e) => Err(e)
      case Ok(body) =>
        match LookupInBody(body, OsTypePath)
        case Err(e) => Err(e)
        case Ok(JString(os)) =>
          if os == "Windows" then Ok(WindowsVm)
          else if os == "Linux" then Ok(LinuxVm)
          else Ok(ScanTable(cfg.types, order, reg, id))
        case Ok(_) => Ok("")
    else Ok(ScanTable(cfg.types, order, reg, id))
  }

  /** The scan finds nothing exactly when no template in the table matches. */
  lemma {:induction false} ScanTableComplete(table: map<string, Template>, order: seq<string>, reg: Registry, id: string)
    requires "" !in table
    requires Covers(order, table)
    ensures ScanTable(table, order, reg, id) == "" <==> forall k :: k in table ==> !reg.Matches(table[k], id)
  {
    var r := ScanTable(table, order, reg, id);
    if r == "" {
      forall k | k in table
        ensures !reg.Matches(table[k], id)
      {
        if reg.Matches(table[k], id) {
          ScanMissesNone(table, order, reg, id, k);
        }
      }
    }
  }

  lemma {:induction false} ScanMissesNone(table: map<string, Template>, order: seq<string>, reg: Registry, id: string, k: string)
    requires "" !in table
    requires k in table && k in order && reg.Matches(table[k], id)
    ensures ScanTable(table, order, reg, id) != ""
    decreases |order|
  {
    if order[0] != k && !(order[0] in table && reg.Matches(table[order[0]], id)) {
      ScanMissesNone(table, order[1..], reg, id, k);
    }
  }

  /** When exactly one template matches, every visit order finds its key. */
  lemma {:induction false} ScanTableUnique(table: map<string, Template>, order: seq<string>, reg: Registry, id: string, k: string)
    requires "" !in table
    requires Covers(order, table)
    requires k in table && reg.Matches(table[k], id)
    requires forall k' :: k' in table && k' != k ==> !reg.Matches(table[k'], id)
    ensures ScanTable(table, order, reg, id) == k
  {
    ScanMissesNone(table, order, reg, id, k);
  }

  /** A VM whose osType is present but not a string resolves to "" with no error,
      without consulting the table. The body may carry any other fields. */
  lemma VmProbeNonStringOs(cfg: Config, order: seq<string>, reg: Registry, probe: string -> Result<Body>, id: string, doc: Json)
    requires reg.Matches(cfg.vm, id)
    requires probe(ProbeUrl(cfg, id)) == Ok(Wellformed(doc)) && doc.JObject?
    requires !Lookup(doc, OsTypePath).JString?
    ensures ResolveType(cfg, order, reg, probe, id) == Ok("")
  {
  }

  /** A VM with osType "Windows" or "Linux" resolves to the matching VM type,
      whatever else the body holds. */
  lemma VmProbeWindows(cfg: Config, order: seq<string>, reg: Registry, probe: string -> Result<Body>, id: string, doc: Json)
    requires reg.Matches(cfg.vm, id)
    requires probe(ProbeUrl(cfg, id)) == Ok(Wellformed(doc)) && doc.JObject?
    requires Lookup(doc, OsTypePath) == JString("Windows")
    ensures ResolveType(cfg, order, reg, probe, id) == Ok(WindowsVm)
  {
  }

  lemma VmProbeLinux(cfg: Config, order: seq<string>, reg: Registry, probe: string -> Result<Body>, id: string, doc: Json)
    requires reg.Matches(cfg.vm, id)
    requires probe(ProbeUrl(cfg, id)) == Ok(Wellformed(doc)) && doc.JObject?
    requires Lookup(doc, OsTypePath) == JString("Linux")
    ensures ResolveType(cfg, order, reg, probe, id) == Ok(LinuxVm)
  {
  }

  /** A body whose `properties` is missing gives "" without error: the missing key
      reads as null, and a non-string osType stops resolution. */
  lemma VmProbeMissingProperties(cfg: Config, order: seq<string>, reg: Registry, probe: string -> Result<Body>, id: string, doc: map<string, Json>)
    requires reg.Matches(cfg.vm, id)
    requires "properties" !in doc
    requires probe(ProbeUrl(cfg, id)) == Ok(Wellformed(JObject(doc)))
    ensures ResolveType(cfg, order, reg, probe, id) == Ok("")
  {
  }

  /** Any other osType string falls through to the table, where the VM template is
      registered under two names: which one comes back depends only on the order
      in which Go happens to visit the map. */
  lemma VmUnknownOsAmbiguous(cfg: Config, reg: Registry, probe: string -> Result<Body>, id: string, doc: Json, rest: seq<string>)
    requires WindowsVm in cfg.types && cfg.types[WindowsVm] == cfg.vm
    requires LinuxVm in cfg.types && cfg.types[LinuxVm] == cfg.vm
    requires reg.Matches(cfg.vm, id)
    requires probe(ProbeUrl(cfg, id)) == Ok(Wellformed(doc)) && doc.JObject?
    requires Lookup(doc, OsTypePath).JString? && Lookup(doc, OsTypePath).s != "Windows" && Lookup(doc, OsTypePath).s != "Linux"
    ensures ResolveType(cfg, [WindowsVm] + rest, reg, probe, id) == Ok(WindowsVm)
    ensures ResolveType(cfg, [LinuxVm] + rest, reg, probe, id) == Ok(LinuxVm)
  {
  }

  /** With the shipped type table, an unrecognised osType makes the answer depend
      on the map's visit order. */
  lemma ShippedVmUnknownOsAmbiguous(cfg: Config, reg: Registry, probe: string -> Result<Body>, id: string, doc: Json, rest: seq<string>)
    requires cfg.types == TypeTable && cfg.vm == VmTemplate
    requires reg.Matches(cfg.vm, id)
    requires probe(ProbeUrl(cfg, id)) == Ok(Wellformed(doc)) && doc.JObject?
    requires Lookup(doc, OsTypePath).JString? && Lookup(doc, OsTypePath).s != "Windows" && Lookup(doc, OsTypePath).s != "Linux"
    ensures ResolveType(cfg, [WindowsVm] + rest, reg, probe, id) != ResolveType(cfg, [LinuxVm] + rest, reg, probe, id)
  {
    VmTemplateRegisteredTwice();
    VmUnknownOsAmbiguous(cfg, reg, probe, id, doc, rest);
  }
}

=== FILE: results.dfy ===
/** Option and Result, the two failure-carrying shapes the model uses in place of
    Go's `(value, error)` returns. Errors carry the text `err.Error()` would give. */
module Results {

  datatype Option<+T> = None | Some(value: T)

  datatype Result<+T> = Ok(value: T) | Err(error: string)
}

=== FILE: serializer.dfy ===
/** The config serializer, `writeBlock` and `printState`
    (internal/pkg/expanders/tfimport.go, lines 523-597), producing the block tree
    hclwrite would print. */
module Serializer {
  import opened Results
  import opened Strings
  import opened Sorting
  import opened Terraform

  /** The documented attribute order: id, name, location, resource_group_name, names
      ending in `_id` or `_ids`, then everything else. */
  function Rank(k: string): nat {
    if k == "id" then 0
    else if k == "name" then 1
    else if k == "location" then 2
    else if k == "resource_group_name" then 3
    else if HasSuffix(k, "_id") || HasSuffix(k, "_ids") then 4
    else 5
  }

  /** The prefix `writeBlock` puts in front of each attribute name before sorting:
      one letter per rank, ascending with the rank. */
  function RankPrefix(k: string): (r: char)
    ensures Rank(k) < 6 && r == ['a', 'b', 'c', 'd', 'e', 'z'][Rank(k)]
  {
    if k == "id" then 'a'
    else if k == "name" then 'b'
    else if k == "location" then 'c'
    else if k == "resource_group_name" then 'd'
    else if HasSuffix(k, "_id") || HasSuffix(k, "_ids") then 'e'
    else 'z'
  }

  /** Rank first, then alphabetical within a rank. */
  predicate AttrBefore(a: string, b: string) {
    Rank(a) < Rank(b) || (Rank(a) == Rank(b) && LexLess(a, b))
  }

  function SortKey(k: string): string {
    [RankPrefix(k)] + k
  }

  /** Sorting the prefixed names is sorting by rank, then alphabetically. */
  lemma SortKeyOrder(a: string, b: string)
    ensures LexLess(SortKey(a), SortKey(b)) <==> AttrBefore(a, b)
  {
    LexLessCons(RankPrefix(a), a, b);
    assert SortKey(a)[0] == RankPrefix(a) && SortKey(b)[0] == RankPrefix(b);
    assert SortKey(a)[1..] == a && SortKey(b)[1..] == b;
  }

  /** An attribute is written unless it is computed and not optional. */
  predicate Settable(a: AttributeSchema) {
    !a.computed || a.optional
  }

  /** `terraformBlock.Attributes[name]`. */
  function FindAttr(attrs: seq<(string, AttributeSchema)>, name: string): (r: Option<AttributeSchema>)
    ensures r.Some? ==> (name, r.value) in attrs
    ensures r.None? ==> forall i :: 0 <= i < |attrs| ==> attrs[i].0 != name
  {
    if |attrs| == 0 then None
    else if attrs[0].0 == name then Some(attrs[0].1)
    else FindAttr(attrs[1..], name)
  }

  /** Names are unique, so the entry found is the only one with that name. */
  lemma FindAttrUnique(attrs: AttributeList, name: string, a: AttributeSchema)
    ensures FindAttr(attrs, name) == Some(a) <==> (name, a) in attrs
  {
    if (name, a) in attrs {
      var i :| 0 <= i < |attrs| && attrs[i] == (name, a);
      var r := FindAttr(attrs, name);
      if r.Some? {
        var j :| 0 <= j < |attrs| && attrs[j] == (name, r.value);
        assert i == j;
      }
    }
  }

  predicate Emittable(attrs: seq<(string, AttributeSchema)>, n: string) {
    FindAttr(attrs, n).Some? && Settable(FindAttr(attrs, n).value)
  }

  /** The schema holds `n` as a settable attribute. */
  predicate SettableIn(attrs: seq<(string, AttributeSchema)>, n: string) {
    exists i :: 0 <= i < |attrs| && attrs[i].0 == n && Settable(attrs[i].1)
  }

  lemma EmittableIsSettableIn(attrs: AttributeList, n: string)
    ensures Emittable(attrs, n) <==> SettableIn(attrs, n)
  {
    if SettableIn(attrs, n) {
      var i :| 0 <= i < |attrs| && attrs[i].0 == n && Settable(attrs[i].1);
      FindAttrUnique(attrs, n, attrs[i].1);
    }
  }

  /** The prefixed keys `writeBlock` collects, in schema order. */
  function Keys(attrs: seq<(string, AttributeSchema)>): (r: seq<string>)
    ensures |r| == |attrs|
    ensures forall i :: 0 <= i < |attrs| ==> |r[i]| == |attrs[i].0| + 1 && r[i][0] == RankPrefix(attrs[i].0) && r[i][1..] == attrs[i].0
  {
    seq(|attrs|, i requires 0 <= i < |attrs| => SortKey(attrs[i].0))
  }

  lemma KeysDistinct(attrs: AttributeList)
    ensures Distinct(Keys(attrs))
    ensures forall n :: SortKey(n) in Keys(attrs) <==> exists i :: 0 <= i < |attrs| && attrs[i].0 == n
  {
    var ks := Keys(attrs);
    forall i, j | 0 <= i < j < |ks|
      ensures ks[i] != ks[j]
    {
      assert ks[i][1..] == attrs[i].0 && ks[j][1..] == attrs[j].0;
    }
    forall n
      ensures SortKey(n) in ks <==> exists i :: 0 <= i < |attrs| && attrs[i].0 == n
    {
      if SortKey(n) in ks {
        var i :| 0 <= i < |ks| && ks[i] == SortKey(n);
        assert ks[i][1..] == n;
      }
      if exists i :: 0 <= i < |attrs| && attrs[i].0 == n {
        var i :| 0 <= i < |attrs| && attrs[i].0 == n;
        assert ks[i] == SortKey(n);
      }
    }
  }

  /** The attribute list `r` writes an attribute called `n`. */
  predicate Writes(r: seq<(string, Value)>, n: string) {
    exists i :: 0 <= i < |r| && r[i].0 == n
  }

  predicate IsSortKey(k: string) {
    |k| > 0 && SortKey(k[1..]) == k
  }

  lemma SortKeyInjective(n: string, m: string)
    ensures SortKey(n) == SortKey(m) ==> n == m
  {
    assert SortKey(n)[1..] == n && SortKey(m)[1..] == m;
  }

  lemma WritesCons(p: (string, Value), rest: seq<(string, Value)>, n: string)
    ensures Writes([p] + rest, n) <==> p.0 == n || Writes(rest, n)
  {
    var r := [p] + rest;
    if Writes(rest, n) {
      var i :| 0 <= i < |rest| && rest[i].0 == n;
      assert r[i + 1].0 == n;
    }
    if Writes(r, n) {
      var i :| 0 <= i < |r| && r[i].0 == n;
      if i > 0 {
        assert rest[i - 1].0 == n;
      }
    }
    assert r[0] == p;
  }

  /** The emission loop over the sorted keys: strip the prefix, and write the
      attribute's state value when the schema says it is settable. */
  function Emit(attrs: seq<(string, AttributeSchema)>, state: Value, ks: seq<string>): (r: seq<(string, Value)>)
    requires forall k :: k in ks ==> IsSortKey(k)
    ensures forall i :: 0 <= i < |r| ==> r[i].1 == GetAttr(state, r[i].0)
    ensures forall i :: 0 <= i < |r| ==> SortKey(r[i].0) in ks
    decreases |ks|
  {
    if |ks| == 0 then []
    else
      assert ks[0] in ks;
      assert IsSortKey(ks[0]);
      var name := ks[0][1..];
      var rest := Emit(attrs, state, ks[1..]);
      if Emittable(attrs, name) then [(name, GetAttr(state, name))] + rest
      else rest
  }

  lemma {:induction false} EmitWrites(attrs: seq<(string, AttributeSchema)>, state: Value, ks: seq<string>, n: string)
    requires forall k :: k in ks ==> IsSortKey(k)
    ensures Writes(Emit(attrs, state, ks), n) <==> SortKey(n) in ks && Emittable(attrs, n)
    decreases |ks|
  {
    if |ks| > 0 {
      assert ks[0] in ks;
      var name := ks[0][1..];
      var rest := Emit(attrs, state, ks[1..]);
      EmitWrites(attrs, state, ks[1..], n);
      SortKeyInjective(n, name);
      assert SortKey(n) in ks <==> SortKey(n) == ks[0] || SortKey(n) in ks[1..];
      if Emittable(attrs, name) {
        WritesCons((name, GetAttr(state, name)), rest, n);
      }
    }
  }

  /** The written names ascend in prefixed-key order. */
  predicate KeysAscend(r: seq<(string, Value)>) {
    forall i, j :: 0 <= i < j < |r| ==> LexLess(SortKey(r[i].0), SortKey(r[j].0))
  }

  /** Every key drawn from the tail of a strictly sorted list comes after its head. */
  lemma HeadPrecedesRest(ks: seq<string>, rest: seq<(string, Value)>)
    requires |ks| > 0 && StrictlySorted(ks)
    requires forall i :: 0 <= i < |rest| ==> SortKey(rest[i].0) in ks[1..]
    ensures forall j :: 0 <= j < |rest| ==> LexLess(ks[0], SortKey(rest[j].0))
  {
    forall j | 0 <= j < |rest|
      ensures LexLess(ks[0], SortKey(rest[j].0))
    {
      var k :| 0 <= k < |ks[1..]| && ks[1..][k] == SortKey(rest[j].0);
      assert ks[k + 1] == SortKey(rest[j].0);
    }
  }

  lemma {:induction false} EmitOrdered(attrs: seq<(string, AttributeSchema)>, state: Value, ks: seq<string>)
    requires forall k :: k in ks ==> IsSortKey(k)
    requires StrictlySorted(ks)
    ensures KeysAscend(Emit(attrs, state, ks))
    decreases |ks|
  {
    if |ks| > 0 {
      assert ks[0] in ks;
      var name := ks[0][1..];
      var rest := Emit(attrs, state, ks[1..]);
      EmitOrdered(attrs, state, ks[1..]);
      if Emittable(attrs, name) {
        assert IsSortKey(ks[0]);
        var r := [(name, GetAttr(state, name))] + rest;
        HeadPrecedesRest(ks, rest);
        assert SortKey(r[0].0) == ks[0];
        forall i, j | 0 <= i < j < |r|
          ensures LexLess(SortKey(r[i].0), SortKey(r[j].0))
        {
          assert r[j] == rest[j - 1];
          if i > 0 {
            assert r[i] == rest[i - 1];
          }
        }
      }
    }
  }

  /** The attributes `writeBlock` writes, in the order it writes them. */
  function EmittedAttributes(attrs: AttributeList, state: Value): (r: seq<(string, Value)>)
    ensures forall i :: 0 <= i < |r| ==> r[i].1 == GetAttr(state, r[i].0)
    ensures forall n :: Writes(r, n) <==> SettableIn(attrs, n)
    ensures forall i, j :: 0 <= i < j < |r| ==> AttrBefore(r[i].0, r[j].0)
  {
    KeysDistinct(attrs);
    var ks := Sort(Keys(attrs));
    assert forall k :: k in ks ==> IsSortKey(k) by {
      forall k | k in ks
        ensures IsSortKey(k)
      {
        assert k in Keys(attrs);
        var i :| 0 <= i < |attrs| && Keys(attrs)[i] == k;
        assert k[1..] == attrs[i].0;
      }
    }
    var r := Emit(attrs, state, ks);
    assert forall n :: Writes(r, n) <==> SettableIn(attrs, n) by {
      forall n
        ensures Writes(r, n) <==> SettableIn(attrs, n)
      {
        EmitWrites(attrs, state, ks, n);
        EmittableIsSettableIn(attrs, n);
      }
    }
    EmitOrdered(attrs, state, ks);
    assert forall i, j :: 0 <= i < j < |r| ==> AttrBefore(r[i].0, r[j].0) by {
      forall i, j | 0 <= i < j < |r|
        ensures AttrBefore(r[i].0, r[j].0)
      {
        SortKeyOrder(r[i].0, r[j].0);
      }
    }
    r
  }

  /** The emitted attributes do not depend on the order Go visits the schema's
      attribute map in. */
  lemma AttributesIgnoreSchemaOrder(a1: AttributeList, a2: AttributeList, state: Value)
    requires forall p :: p in a1 <==> p in a2
    ensures EmittedAttributes(a1, state) == EmittedAttributes(a2, state)
  {
    KeysDistinct(a1);
    KeysDistinct(a2);
    forall y
      ensures y in Keys(a1) <==> y in Keys(a2)
    {
      if y in Keys(a1) {
        var i :| 0 <= i < |a1| && Keys(a1)[i] == y;
        assert a1[i] in a2;
        var j :| 0 <= j < |a2| && a2[j] == a1[i];
        assert Keys(a2)[j] == y;
      }
      if y in Keys(a2) {
        var i :| 0 <= i < |a2| && Keys(a2)[i] == y;
        assert a2[i] in a1;
        var j :| 0 <= j < |a1| && a1[j] == a2[i];
        assert Keys(a1)[j] == y;
      }
    }
    SortIgnoresInputOrder(Keys(a1), Keys(a2));
    forall n
      ensures FindAttr(a1, n) == FindAttr(a2, n)
    {
      var r1 := FindAttr(a1, n);
      if r1.Some? {
        FindAttrUnique(a1, n, r1.value);
        FindAttrUnique(a2, n, r1.value);
      }
      var r2 := FindAttr(a2, n);
      if r2.Some? {
        FindAttrUnique(a1, n, r2.value);
        FindAttrUnique(a2, n, r2.value);
      }
    }
    EmitSameLookups(a1, a2, state, Sort(Keys(a1)));
  }

  lemma {:induction false} EmitSameLookups(a1: seq<(string, AttributeSchema)>, a2: seq<(string, AttributeSchema)>, state: Value, ks: seq<string>)
    requires forall k :: k in ks ==> IsSortKey(k)
    requires forall n :: FindAttr(a1, n) == FindAttr(a2, n)
    ensures Emit(a1, state, ks) == Emit(a2, state, ks)
    decreases |ks|
  {
    if |ks| > 0 {
      EmitSameLookups(a1, a2, state, ks[1..]);
    }
  }

  /** The object-typed elements of an iterable block value, in element order. */
  function Objects(elems: seq<Value>): (r: seq<Value>)
    ensures forall v :: v in r ==> v.Obj? && v in elems
  {
    if |elems| == 0 then []
    else (if elems[0].Obj? then [elems[0]] else []) + Objects(elems[1..])
  }

  /** The blocks of kind `k`, in order. */
  function OfKind(bs: seq<OutBlock>, k: string): (r: seq<OutBlock>)
    ensures forall b :: b in r ==> b in bs && b.kind == k
    decreases |bs|
  {
    if |bs| == 0 then []
    else (if bs[0].kind == k then [bs[0]] else []) + OfKind(bs[1..], k)
  }

  lemma {:induction false} OfKindAppend(a: seq<OutBlock>, b: seq<OutBlock>, k: string)
    ensures OfKind(a + b, k) == OfKind(a, k) + OfKind(b, k)
    decreases |a|
  {
    if |a| == 0 {
      assert a + b == b;
    } else {
      assert (a + b)[0] == a[0];
      assert (a + b)[1..] == a[1..] + b;
      OfKindAppend(a[1..], b, k);
      var h: seq<OutBlock> := if a[0].kind == k then [a[0]] else [];
      assert h + (OfKind(a[1..], k) + OfKind(b, k)) == (h + OfKind(a[1..], k)) + OfKind(b, k);
    }
  }

  /** Selecting the kind every block has keeps them all; selecting another keeps none. */
  lemma {:induction false} OfKindUniform(bs: seq<OutBlock>, name: string, k: string)
    requires forall b :: b in bs ==> b.kind == name
    ensures OfKind(bs, k) == if k == name then bs else []
    decreases |bs|
  {
    if |bs| > 0 {
      assert bs[0] in bs;
      assert forall b :: b in bs[1..] ==> b in bs;
      OfKindUniform(bs[1..], name, k);
      if k == name {
        assert [bs[0]] + bs[1..] == bs;
      }
    }
  }

  /** Blocks all of kind `name`, followed by others: selecting `name` gives the
      first part when the others never have that kind; any other kind is found in
      the others only. */
  lemma KindsAfter(here: seq<OutBlock>, rest: seq<OutBlock>, name: string, k: string)
    requires forall b :: b in here ==> b.kind == name
    ensures k == name && (forall b :: b in rest ==> b.kind != k) ==> OfKind(here + rest, k) == here
    ensures k != name ==> OfKind(here + rest, k) == OfKind(rest, k)
  {
    OfKindAppend(here, rest, k);
    OfKindUniform(here, name, k);
    if k == name && (forall b :: b in rest ==> b.kind != k) && OfKind(rest, k) != [] {
      assert OfKind(rest, k)[0] in rest;
    }
  }

  /** The names of a schema's block types, in visit order. */
  function BlockNames(bt: seq<(string, NestedBlock)>): (r: seq<string>)
    ensures |r| == |bt| && forall j :: 0 <= j < |bt| ==> r[j] == bt[j].0
  {
    seq(|bt|, j requires 0 <= j < |bt| => bt[j].0)
  }

  /** No block of a later-visited type comes before one of an earlier-visited type. */
  predicate Grouped(bs: seq<OutBlock>, names: seq<string>) {
    forall a, b, j, k :: 0 <= a < b < |bs| && 0 <= j < k < |names| && bs[a].kind == names[k] ==> bs[b].kind != names[j]
  }

  /** Blocks of the `i`-th type followed by a grouped run of later types stay grouped. */
  lemma GroupedCons(here: seq<OutBlock>, rest: seq<OutBlock>, names: seq<string>, i: nat)
    requires i < |names| && forall j, k :: 0 <= j < k < |names| ==> names[j] != names[k]
    requires forall b :: b in here ==> b.kind == names[i]
    requires forall b :: b in rest ==> exists m :: i < m < |names| && b.kind == names[m]
    requires Grouped(rest, names)
    ensures Grouped(here + rest, names)
  {
    var r := here + rest;
    forall a, b, j, k | 0 <= a < b < |r| && 0 <= j < k < |names| && r[a].kind == names[k]
      ensures r[b].kind != names[j]
    {
      if b < |here| {
        assert r[a] in here && r[b] in here;
      } else if a < |here| {
        assert r[a] in here && r[b] == rest[b - |here|] && rest[b - |here|] in rest;
      } else {
        assert r[a] == rest[a - |here|] && r[b] == rest[b - |here|];
      }
    }
  }

  /** writeBlock on one block: the attributes, then the nested blocks of each
      block type of the schema, in the order the block types are visited. */
  function WriteBody(schema: Schema, state: Value): (r: OutBody)
    ensures forall i :: 0 <= i < |r.attributes| ==> r.attributes[i].1 == GetAttr(state, r.attributes[i].0)
    ensures forall n :: Writes(r.attributes, n) <==> SettableIn(schema.attributes, n)
    ensures forall i, j :: 0 <= i < j < |r.attributes| ==> AttrBefore(r.attributes[i].0, r.attributes[j].0)
    ensures forall j {:trigger OfKind(r.blocks, schema.blockTypes[j].0)} :: 0 <= j < |schema.blockTypes| ==>
              OfKind(r.blocks, schema.blockTypes[j].0)
              == ExpandNested(schema.blockTypes[j].0, schema.blockTypes[j].1.block, GetAttr(state, schema.blockTypes[j].0))
    ensures forall b :: b in r.blocks ==> exists j :: 0 <= j < |schema.blockTypes| && b.kind == schema.blockTypes[j].0
    ensures Grouped(r.blocks, BlockNames(schema.blockTypes))
    decreases schema, 1
  {
    OutBody(EmittedAttributes(schema.attributes, state), WriteNested(schema, 0, state))
  }

  /** The loop over the block types from the `i`-th on: each block type's blocks
      are exactly those its value expands to, and no other kind appears. */
  function WriteNested(schema: Schema, i: nat, state: Value): (r: seq<OutBlock>)
    requires i <= |schema.blockTypes|
    ensures forall j {:trigger OfKind(r, schema.blockTypes[j].0)} :: i <= j < |schema.blockTypes| ==>
              OfKind(r, schema.blockTypes[j].0)
              == ExpandNested(schema.blockTypes[j].0, schema.blockTypes[j].1.block, GetAttr(state, schema.blockTypes[j].0))
    ensures forall b :: b in r ==> exists j :: i <= j < |schema.blockTypes| && b.kind == schema.blockTypes[j].0
    ensures Grouped(r, BlockNames(schema.blockTypes))
    decreases schema, 0, |schema.blockTypes| - i
  {
    if i == |schema.blockTypes| then []
    else
      var entry := schema.blockTypes[i];
      assert entry in schema.blockTypes;
      var here := ExpandNested(entry.0, entry.1.block, GetAttr(state, entry.0));
      var rest := WriteNested(schema, i + 1, state);
      forall j | i <= j < |schema.blockTypes|
        ensures OfKind(here + rest, schema.blockTypes[j].0)
                == ExpandNested(schema.blockTypes[j].0, schema.blockTypes[j].1.block, GetAttr(state, schema.blockTypes[j].0))
      {
        var k := schema.blockTypes[j].0;
        if j == i {
          assert forall b :: b in rest ==> b.kind != k;
        }
        KindsAfter(here, rest, entry.0, k);
      }
      GroupedCons(here, rest, BlockNames(schema.blockTypes), i);
      here + rest
  }

  /** One block type's value: an object gives one nested block, an iterable gives
      one per object-typed element in element order, anything else gives none. */
  function ExpandNested(name: string, schema: Schema, v: Value): (r: seq<OutBlock>)
    ensures forall b :: b in r ==> b.kind == name
    ensures v.Obj? ==> r == [OutBlock(name, [], WriteBody(schema, v))]
    ensures v.Coll? ==> |r| == |Objects(v.elems)|
    ensures v.Coll? ==> forall i :: 0 <= i < |r| ==> r[i] == OutBlock(name, [], WriteBody(schema, Objects(v.elems)[i]))
    ensures !v.Obj? && !v.Coll? ==> r == []
    decreases schema, 4
  {
    match v
    case Obj(_) => [OutBlock(name, [], WriteBody(schema, v))]
    case Coll(elems) => ExpandElems(name, schema, elems)
    case _ => []
  }

  function ExpandElems(name: string, schema: Schema, elems: seq<Value>): (r: seq<OutBlock>)
    ensures |r| == |Objects(elems)|
    ensures forall i :: 0 <= i < |r| ==> r[i] == OutBlock(name, [], WriteBody(schema, Objects(elems)[i]))
    decreases schema, 3, |elems|
  {
    if |elems| == 0 then []
    else
      var h := ElemBlocks(name, schema, elems[0]);
      var rest := ExpandElems(name, schema, elems[1..]);
      assert Objects(elems) == (if elems[0].Obj? then [elems[0]] else []) + Objects(elems[1..]);
      h + rest
  }

  /** One iterated element: a block when it is an object, nothing otherwise. */
  function ElemBlocks(name: string, schema: Schema, v: Value): (r: seq<OutBlock>)
    ensures v.Obj? ==> r == [OutBlock(name, [], WriteBody(schema, v))]
    ensures !v.Obj? ==> r == []
    decreases schema, 2
  {
    if v.Obj? then [OutBlock(name, [], WriteBody(schema, v))] else []
  }

  lemma {:induction false} ObjectsAppend(a: seq<Value>, b: seq<Value>)
    ensures Objects(a + b) == Objects(a) + Objects(b)
    decreases |a|
  {
    if |a| > 0 {
      assert (a + b)[0] == a[0];
      assert (a + b)[1..] == a[1..] + b;
      ObjectsAppend(a[1..], b);
      var h: seq<Value> := if a[0].Obj? then [a[0]] else [];
      assert Objects(a + b) == h + (Objects(a[1..]) + Objects(b));
      assert h + (Objects(a[1..]) + Objects(b)) == (h + Objects(a[1..])) + Objects(b);
    } else {
      assert a + b == b;
    }
  }

  lemma {:induction false} ObjectsIdempotent(elems: seq<Value>)
    ensures Objects(Objects(elems)) == Objects(elems)
    decreases |elems|
  {
    if |elems| > 0 {
      ObjectsIdempotent(elems[1..]);
      ObjectsAppend(if elems[0].Obj? then [elems[0]] else [], Objects(elems[1..]));
    }
  }

  /** Non-object elements of an iterable contribute no block: dropping them first
      changes nothing. */
  lemma NonObjectsIgnored(name: string, schema: Schema, elems: seq<Value>)
    ensures ExpandNested(name, schema, Coll(elems)) == ExpandNested(name, schema, Coll(Objects(elems)))
  {
    ObjectsIdempotent(elems);
  }

  /** A single object value writes the same block as a one-element list of it. */
  lemma SingleObjectIsOneElementList(name: string, schema: Schema, v: Value)
    requires v.Obj?
    ensures ExpandNested(name, schema, v) == ExpandNested(name, schema, Coll([v]))
  {
    assert [v][1..] == [];
  }

  /** The blocks of a concatenated iterable are the blocks of each part, in order. */
  lemma {:induction false} ExpandElemsAppend(name: string, schema: Schema, a: seq<Value>, b: seq<Value>)
    ensures ExpandElems(name, schema, a + b) == ExpandElems(name, schema, a) + ExpandElems(name, schema, b)
    decreases |a|
  {
    if |a| == 0 {
      assert a + b == b;
    } else {
      assert (a + b)[0] == a[0];
      assert (a + b)[1..] == a[1..] + b;
      ExpandElemsAppend(name, schema, a[1..], b);
      var h := ElemBlocks(name, schema, a[0]);
      var ra, rb := ExpandElems(name, schema, a[1..]), ExpandElems(name, schema, b);
      assert h + (ra + rb) == (h + ra) + rb;
    }
  }

  /** A computed attribute the user cannot set is never written. */
  lemma ComputedOnlyOmitted(attrs: AttributeList, state: Value, n: string, optional: bool)
    requires (n, AttributeSchema(true, optional)) in attrs
    ensures Writes(EmittedAttributes(attrs, state), n) <==> optional
  {
    var i :| 0 <= i < |attrs| && attrs[i] == (n, AttributeSchema(true, optional));
    if SettableIn(attrs, n) {
      var j :| 0 <= j < |attrs| && attrs[j].0 == n && Settable(attrs[j].1);
      assert i == j;
    }
  }

  /** A non-computed attribute is always written, with the state's value. */
  lemma PlainAttributeWritten(attrs: AttributeList, state: Value, n: string, optional: bool)
    requires (n, AttributeSchema(false, optional)) in attrs
    ensures Writes(EmittedAttributes(attrs, state), n)
  {
  }

  /** Two attribute lists, each ascending in `AttrBefore`, that write the same
      names are the same list of names. */
  lemma {:induction false} AttrOrderUnique(a: seq<string>, b: seq<string>)
    requires forall i, j :: 0 <= i < j < |a| ==> AttrBefore(a[i], a[j])
    requires forall i, j :: 0 <= i < j < |b| ==> AttrBefore(b[i], b[j])
    requires forall n :: n in a <==> n in b
    ensures a == b
  {
    var ka := seq(|a|, i requires 0 <= i < |a| => SortKey(a[i]));
    var kb := seq(|b|, i requires 0 <= i < |b| => SortKey(b[i]));
    forall i, j | 0 <= i < j < |ka|
      ensures LexLess(ka[i], ka[j])
    {
      SortKeyOrder(a[i], a[j]);
    }
    forall i, j | 0 <= i < j < |kb|
      ensures LexLess(kb[i], kb[j])
    {
      SortKeyOrder(b[i], b[j]);
    }
    forall y
      ensures y in ka <==> y in kb
    {
      if y in ka {
        var i :| 0 <= i < |ka| && ka[i] == y;
        assert a[i] in b;
        var j :| 0 <= j < |b| && b[j] == a[i];
        assert kb[j] == y;
      }
      if y in kb {
        var i :| 0 <= i < |kb| && kb[i] == y;
        assert b[i] in a;
        var j :| 0 <= j < |a| && a[j] == b[i];
        assert ka[j] == y;
      }
    }
    SortedUnique(ka, kb);
    assert |a| == |b|;
    forall i | 0 <= i < |a|
      ensures a[i] == b[i]
    {
      assert ka[i] == kb[i];
      SortKeyInjective(a[i], b[i]);
    }
  }

  function Names(r: seq<(string, Value)>): (ns: seq<string>)
    ensures |ns| == |r| && forall i :: 0 <= i < |r| ==> ns[i] == r[i].0
  {
    seq(|r|, i requires 0 <= i < |r| => r[i].0)
  }

  /** Five settable attributes, listed out of order. */
  const ExampleAttrs: AttributeList := [
    ("zebra", AttributeSchema(false, true)),
    ("id", AttributeSchema(true, true)),
    ("name", AttributeSchema(false, false)),
    ("custom_id", AttributeSchema(false, true)),
    ("location", AttributeSchema(false, false))
  ]

  /** The written names are fixed by which attributes are settable: any list of
      exactly those names in `AttrBefore` order is what `writeBlock` writes. */
  lemma EmittedNames(attrs: AttributeList, state: Value, want: seq<string>)
    requires forall i, j :: 0 <= i < j < |want| ==> AttrBefore(want[i], want[j])
    requires forall n :: n in want <==> SettableIn(attrs, n)
    ensures Names(EmittedAttributes(attrs, state)) == want
  {
    var r := EmittedAttributes(attrs, state);
    var ns := Names(r);
    forall n
      ensures n in ns <==> n in want
    {
      if n in ns {
        var i :| 0 <= i < |ns| && ns[i] == n;
        assert Writes(r, n);
      }
      if n in want {
        assert Writes(r, n);
        var i :| 0 <= i < |r| && r[i].0 == n;
        assert ns[i] == n;
      }
    }
    AttrOrderUnique(ns, want);
  }

  /** The order the documented ranking gives for the example. */
  const ExampleWant: seq<string> := ["id", "name", "location", "custom_id", "zebra"]

  lemma ExampleWantRanked()
    ensures forall i, j :: 0 <= i < j < |ExampleWant| ==> AttrBefore(ExampleWant[i], ExampleWant[j])
  {
    assert HasSuffix("custom_id", "_id");
    assert !HasSuffix("zebra", "_id") && !HasSuffix("zebra", "_ids");
    assert Rank(ExampleWant[0]) == 0 && Rank(ExampleWant[1]) == 1 && Rank(ExampleWant[2]) == 2;
    assert Rank(ExampleWant[3]) == 4 && Rank(ExampleWant[4]) == 5;
  }

  lemma ExampleSettable(n: string)
    ensures n in ExampleWant <==> SettableIn(ExampleAttrs, n)
  {
    if n in ExampleWant {
      var k :| 0 <= k < 5 && ExampleWant[k] == n;
      var i := [1, 2, 4, 3, 0][k];
      assert ExampleAttrs[i].0 == n && Settable(ExampleAttrs[i].1);
    }
    if SettableIn(ExampleAttrs, n) {
      var i :| 0 <= i < 5 && ExampleAttrs[i].0 == n && Settable(ExampleAttrs[i].1);
      assert ExampleWant[[4, 0, 1, 3, 2][i]] == n;
    }
  }

  /** The documented order on a concrete schema: id, name, location, then the
      `_id` name, then the rest. */
  lemma ExampleOrder(state: Value)
    ensures Names(EmittedAttributes(ExampleAttrs, state)) == ["id", "name", "location", "custom_id", "zebra"]
  {
    ExampleWantRanked();
    forall n
      ensures n in ExampleWant <==> SettableIn(ExampleAttrs, n)
    {
      ExampleSettable(n);
    }
    EmittedNames(ExampleAttrs, state, ExampleWant);
  }

  const PlaceholderName := "todo_resource_name"

  /** The block label: the `name` attribute with dashes made underscores, or the
      placeholder. cty's `AsString` on a non-string and `HasAttribute` on a
      non-object type panic; the model reports those as errors. */
  function LocalName(state: Value): (r: Result<string>)
    ensures r.Ok? ==> '-' !in r.value
    ensures state.Obj? && "name" !in state.attrs ==> r == Ok(PlaceholderName)
    ensures state.Obj? && "name" in state.attrs && state.attrs["name"].Str?
            ==> r == Ok(ReplaceDashes(state.attrs["name"].s))
    ensures r.Err? <==> !state.Obj? || ("name" in state.attrs && !state.attrs["name"].Str?)
  {
    match state
    case Obj(attrs) =>
      if "name" in attrs then
        match attrs["name"]
        case Str(s) =>
          ReplaceDashesRemovesAll(s);
          Ok(ReplaceDashes(s))
        case _ => Err("panic: value is not a known string")
      else Ok(PlaceholderName)
    case _ => Err("panic: type is not an object")
  }

  /** printState: one `resource "<type>" "<local name>"` block around the body.
      A missing schema leaves a nil block, which `writeBlock` dereferences. */
  function PrintState(state: Value, typeName: string, schema: Option<Schema>): (r: Result<OutBlock>)
    ensures r.Ok? <==> LocalName(state).Ok? && schema.Some?
    ensures r.Ok? ==> r.value.kind == "resource" && |r.value.labels| == 2
    ensures r.Ok? ==> r.value.labels[0] == typeName && r.value.labels[1] == LocalName(state).value
    ensures r.Ok? ==> '-' !in r.value.labels[1]
    ensures r.Ok? ==> r.value.body == WriteBody(schema.value, state)
  {
    match LocalName(state)
    case Err(e) => Err(e)
    case Ok(name) =>
      match schema
      case None => Err("panic: runtime error: invalid memory address or nil pointer dereference")
      case Some(block) => Ok(OutBlock("resource", [typeName, name], WriteBody(block, state)))
  }
}

=== FILE: sorting.dfy ===
/** `sort.Strings` on a list of distinct strings: insertion sort into strictly
    increasing order, and the fact that the sorted arrangement is unique. */
module Sorting {
  import opened Strings

  predicate StrictlySorted(s: seq<string>) {
    forall i, j :: 0 <= i < j < |s| ==> LexLess(s[i], s[j])
  }

  predicate Distinct<T(==)>(s: seq<T>) {
    forall i, j :: 0 <= i < j < |s| ==> s[i] != s[j]
  }

  lemma BelowAll(x: string, s: seq<string>)
    requires StrictlySorted(s) && |s| > 0 && LexLess(x, s[0])
    ensures forall j :: 0 <= j < |s| ==> LexLess(x, s[j])
  {
    forall j | 0 < j < |s|
      ensures LexLess(x, s[j])
    {
      LexLessTransitive(x, s[0], s[j]);
    }
  }

  function Insert(x: string, s: seq<string>): (r: seq<string>)
    requires StrictlySorted(s) && x !in s
    ensures StrictlySorted(r)
    ensures |r| == |s| + 1
    ensures forall y :: y in r <==> y == x || y in s
  {
    if |s| == 0 then [x]
    else if LexLess(x, s[0]) then
      BelowAll(x, s);
      [x] + s
    else
      LexLessTotal(x, s[0]);
      var tail := Insert(x, s[1..]);
      assert forall y :: y in tail ==> LexLess(s[0], y) by {
        forall y | y in tail
          ensures LexLess(s[0], y)
        {
          if y != x {
            var j :| 1 <= j < |s| && s[j] == y;
          }
        }
      }
      [s[0]] + tail
  }

  function Sort(s: seq<string>): (r: seq<string>)
    requires Distinct(s)
    ensures StrictlySorted(r)
    ensures |r| == |s|
    ensures forall y :: y in r <==> y in s
  {
    if |s| == 0 then []
    else
      assert s[0] !in s[1..];
      Insert(s[0], Sort(s[1..]))
  }

  /** Two strictly increasing lists holding the same strings are the same list:
      the sorted order does not depend on the order the input came in. */
  lemma {:induction false} SortedUnique(a: seq<string>, b: seq<string>)
    requires StrictlySorted(a) && StrictlySorted(b)
    requires forall y :: y in a <==> y in b
    ensures a == b
    decreases |a|
  {
    if |b| > 0 {
      assert b[0] in b;
    }
    if |a| > 0 {
      assert a[0] in b;
      assert |b| > 0;
      assert b[0] in a;
      if a[0] != b[0] {
        var i :| 0 <= i < |a| && a[i] == b[0];
        var j :| 0 <= j < |b| && b[j] == a[0];
        LexLessAsymmetric(a[0], b[0]);
      }
      forall y
        ensures y in a[1..] <==> y in b[1..]
      {
        if y in a[1..] {
          var i :| 1 <= i < |a| && a[i] == y;
          assert LexLess(a[0], y);
          LexLessIrreflexive(y);
          assert y != b[0];
          assert y in b;
          var k :| 0 <= k < |b| && b[k] == y;
          assert b[1..][k - 1] == y;
        }
        if y in b[1..] {
          var j :| 1 <= j < |b| && b[j] == y;
          assert LexLess(b[0], y);
          LexLessIrreflexive(y);
          assert y != a[0];
          assert y in a;
          var k :| 0 <= k < |a| && a[k] == y;
          assert a[1..][k - 1] == y;
        }
      }
      SortedUnique(a[1..], b[1..]);
      assert a == [a[0]] + a[1..] && b == [b[0]] + b[1..];
    }
  }

  /** Sorting two arrangements of the same distinct strings gives one result. */
  lemma SortIgnoresInputOrder(s: seq<string>, t: seq<string>)
    requires Distinct(s) && Distinct(t)
    requires forall y :: y in s <==> y in t
    ensures Sort(s) == Sort(t)
  {
    SortedUnique(Sort(s), Sort(t));
  }
}

=== FILE: strings.dfy ===
/** String helpers with the meaning Go's `strings` package and `sort.Strings` give them.
    Characters compare by code point, which for UTF-8 text is the byte order Go uses. */
module Strings {
  import opened Results

  predicate HasPrefix(s: string, prefix: string) {
    |prefix| <= |s| && s[..|prefix|] == prefix
  }

  /** strings.HasSuffix: case-sensitive, character for character. */
  predicate HasSuffix(s: string, suffix: string) {
    |suffix| <= |s| && s[|s| - |suffix|..] == suffix
  }

  /** Go's `%q` verb, without the escaping of quotes, backslashes and control characters. */
  function Quote(s: string): string {
    "\"" + s + "\""
  }

  /** strings.ReplaceAll(s, "-", "_"). */
  function ReplaceDashes(s: string): (r: string)
    ensures |r| == |s|
    ensures forall i :: 0 <= i < |s| ==> r[i] == (if s[i] == '-' then '_' else s[i])
  {
    if |s| == 0 then ""
    else [if s[0] == '-' then '_' else s[0]] + ReplaceDashes(s[1..])
  }

  lemma ReplaceDashesRemovesAll(s: string)
    ensures '-' !in ReplaceDashes(s)
  {
  }

  /** Index of the first occurrence of `c`, if any. */
  function IndexOf(s: string, c: char): (r: Option<nat>)
    ensures r.Some? ==> r.value < |s| && s[r.value] == c && c !in s[..r.value]
    ensures r.None? <==> c !in s
  {
    if |s| == 0 then None
    else if s[0] == c then Some(0)
    else match IndexOf(s[1..], c)
      case None => None
      case Some(i) =>
        assert s[..i + 1] == [s[0]] + s[1..][..i];
        Some(i + 1)
  }

  /** The first occurrence of `c` is at `i` when `s[i]` is `c` and nothing before is. */
  lemma {:induction false} IndexOfFirst(s: string, c: char, i: nat)
    requires i < |s| && s[i] == c && c !in s[..i]
    ensures IndexOf(s, c) == Some(i)
    decreases i
  {
    if i > 0 {
      assert s[..i][0] == s[0];
      assert s[1..][..i - 1] == s[1..i];
      assert s[1..i] == s[..i][1..];
      IndexOfFirst(s[1..], c, i - 1);
    }
  }

  /** Lexicographic strict order on strings: Go's `a < b`. */
  predicate LexLess(a: string, b: string)
    decreases |a|
  {
    if |a| == 0 then |b| > 0
    else |b| > 0 && (a[0] < b[0] || (a[0] == b[0] && LexLess(a[1..], b[1..])))
  }

  lemma {:induction false} LexLessIrreflexive(a: string)
    ensures !LexLess(a, a)
    decreases |a|
  {
    if |a| > 0 {
      LexLessIrreflexive(a[1..]);
    }
  }

  lemma {:induction false} LexLessAsymmetric(a: string, b: string)
    ensures LexLess(a, b) ==> !LexLess(b, a)
    decreases |a|
  {
    if |a| > 0 && |b| > 0 {
      LexLessAsymmetric(a[1..], b[1..]);
    }
  }

  lemma {:induction false} LexLessTransitive(a: string, b: string, c: string)
    requires LexLess(a, b) && LexLess(b, c)
    ensures LexLess(a, c)
    decreases |a|
  {
    if |a| > 0 && a[0] == b[0] && b[0] == c[0] {
      LexLessTransitive(a[1..], b[1..], c[1..]);
    }
  }

  lemma {:induction false} LexLessTotal(a: string, b: string)
    ensures a == b || LexLess(a, b) || LexLess(b, a)
    decreases |a|
  {
    if |a| > 0 && |b| > 0 && a[0] == b[0] {
      LexLessTotal(a[1..], b[1..]);
      if a[1..] == b[1..] {
        assert a == [a[0]] + a[1..] && b == [b[0]] + b[1..];
      }
    }
  }

  /** Putting the same character in front of two strings keeps their order. */
  lemma LexLessCons(c: char, a: string, b: string)
    ensures LexLess([c] + a, [c] + b) <==> LexLess(a, b)
  {
    assert ([c] + a)[1..] == a && ([c] + b)[1..] == b;
  }
}

=== FILE: tables.dfy ===
/** The fixed lookup tables of the Terraform-import expander
    (internal/pkg/expanders/tfimport.go, lines 25-114), gathered into one `Config`
    value that the resolver, ignore filter and remapper take explicitly. */
module Tables {
  import opened Templates

  /** Per-type strategies that replace the default import identifier. */
  datatype Override = BlobContainerUrl

  datatype Config = Config(
    vm: Template,                            // the template probed before the table scan
    types: map<string, Template>,            // resource type name -> template
    suffixes: seq<string>,                   // global ignore suffixes
    ignore: map<string, seq<Template>>,      // parent type name -> child templates to skip
    overrides: map<string, Override>)        // type name -> import-identifier strategy

  const WindowsVm := "azurerm_windows_virtual_machine"
  const LinuxVm := "azurerm_linux_virtual_machine"
  const StorageContainer := "azurerm_storage_container"
  const AppService := "azurerm_app_service"
  const MssqlDatabase := "azurerm_mssql_database"

  const VmTemplate := Template("/subscriptions/{subscriptionId}/resourceGroups/{resourceGroupName}/providers/Microsoft.Compute/virtualMachines/{vmName}", "2020-06-01")

  const ContainerTemplate := Template("/subscriptions/{subscriptionName}/resourceGroups/{resourceGroupName}/providers/Microsoft.Storage/storageAccounts/{accountName}/blobServices/default/containers/{containerName}", "")

  const TypeTable: map<string, Template> := map[
    "azurerm_resource_group" := Template("/subscriptions/{subscriptionName}/resourceGroups/{resourceGroupName}", ""),
    "azurerm_app_service_plan" := Template("/subscriptions/{subscriptionName}/resourceGroups/{resourceGroupName}/providers/Microsoft.Web/serverfarms/{farmName}", ""),
    AppService := Template("/subscriptions/{subscriptionName}/resourceGroups/{resourceGroupName}/providers/Microsoft.Web/sites/{siteName}", ""),
    "azurerm_storage_account" := Template("/subscriptions/{subscriptionName}/resourceGroups/{resourceGroupName}/providers/Microsoft.Storage/storageAccounts/{accountName}", ""),
    StorageContainer := ContainerTemplate,
    "azurerm_mssql_server" := Template("/subscriptions/{subscriptionName}/resourceGroups/{resourceGroupName}/providers/Microsoft.Sql/servers/{serverName}", ""),
    MssqlDatabase := Template("/subscriptions/{subscriptionId}/resourceGroups/{resourceGroupName}/providers/Microsoft.Sql/servers/{serverName}/databases/{databaseName}", ""),
    "azurerm_private_endpoint" := Template("/subscriptions/{subscriptionName}/resourceGroups/{resourceGroupName}/providers/Microsoft.Network/privateEndpoints/{endpointName}", ""),
    "azurerm_network_interface" := Template("/subscriptions/{subscriptionId}/resourceGroups/{resourceGroupName}/providers/Microsoft.Network/networkInterfaces/{networkInterfaceName}", ""),
    "azurerm_network_security_group" := Template("/subscriptions/{subscriptionId}/resourceGroups/{resourceGroupName}/providers/Microsoft.Network/networkSecurityGroups/{networkSecurityGroupName}", ""),
    "azurerm_network_security_rule" := Template("/subscriptions/{subscriptionId}/resourceGroups/{resourceGroupName}/providers/Microsoft.Network/networkSecurityGroups/{networkSecurityGroupName}/securityRules/{securityRuleName}", ""),
    "azurerm_private_dns_zone" := Template("/subscriptions/{subscriptionId}/resourceGroups/{resourceGroupName}/providers/Microsoft.Network/privateDnsZones/{privateZoneName}", ""),
    "azurerm_private_dns_zone_virtual_network_link" := Template("/subscriptions/{subscriptionId}/resourceGroups/{resourceGroupName}/providers/Microsoft.Network/privateDnsZones/{privateZoneName}/virtualNetworkLinks/{virtualNetworkLinkName}", ""),
    "azurerm_public_ip" := Template("/subscriptions/{subscriptionId}/resourceGroups/{resourceGroupName}/providers/Microsoft.Network/publicIPAddresses/{publicIpAddressName}", ""),
    "azurerm_virtual_network_gateway" := Template("/subscriptions/{subscriptionId}/resourceGroups/{resourceGroupName}/providers/Microsoft.Network/virtualNetworkGateways/{virtualNetworkGatewayName}", ""),
    "azurerm_virtual_network" := Template("/subscriptions/{subscriptionId}/resourceGroups/{resourceGroupName}/providers/Microsoft.Network/virtualNetworks/{virtualNetworkName}", ""),
    "azurerm_subnet" := Template("/subscriptions/{subscriptionId}/resourceGroups/{resourceGroupName}/providers/Microsoft.Network/virtualNetworks/{virtualNetworkName}/subnets/{subnetName}", ""),
    "azurerm_key_vault" := Template("/subscriptions/{subscriptionId}/resourceGroups/{resourceGroupName}/providers/Microsoft.KeyVault/vaults/{vaultName}", ""),
    "azurerm_virtual_machine_extension" := Template("/subscriptions/{subscriptionId}/resourceGroups/{resourceGroupName}/providers/Microsoft.Compute/virtualMachines/{vmName}/extensions/{vmExtensionName}", ""),
    "azurerm_managed_disk" := Template("/subscriptions/{subscriptionId}/resourceGroups/{resourceGroupName}/providers/Microsoft.Compute/disks/{diskName}", ""),
    WindowsVm := VmTemplate,
    LinuxVm := VmTemplate
  ]

  const DiagSettingsSuffix := "/<diagsettings>"
  const ActivityLogSuffix := "/<activitylog>"
  const DeploymentsSuffix := "/providers/Microsoft.Resources/deployments"
  const MetricsSuffix := "/providers/microsoft.Insights/metrics"
  const MetricDefinitionsSuffix := "/providers/microsoft.insights/metricdefinitions"

  const IgnoreSuffixes: seq<string> :=
    [DiagSettingsSuffix, ActivityLogSuffix, DeploymentsSuffix, MetricsSuffix, MetricDefinitionsSuffix]

  const ContainerChildTemplate := Template("/subscriptions/{subscriptionName}/resourceGroups/{resourceGroupName}/providers/Microsoft.Storage/storageAccounts/{accountName}/blobServices/default/containers/{containerName}/{path}", "")

  const IgnoreTable: map<string, seq<Template>> := map[
    AppService := [
      Template("/subscriptions/{subscriptionName}/resourceGroups/{resourceGroupName}/providers/Microsoft.Web/sites/{siteName}/instances", ""),
      Template("/subscriptions/{subscriptionName}/resourceGroups/{resourceGroupName}/providers/Microsoft.Web/sites/{siteName}/processes", "")
    ],
    StorageContainer := [ContainerChildTemplate],
    MssqlDatabase := [
      Template("/subscriptions/{subscriptionId}/resourceGroups/{resourceGroupName}/providers/Microsoft.Sql/servers/{serverName}/databases/{databaseName}/{placeholder}", "")
    ]
  ]

  /** The template the storage-container override builds its path from. */
  const ContainerPathTemplate := Template("/{containerName}", "")

  const Overrides: map<string, Override> := map[StorageContainer := BlobContainerUrl]

  /** The shipped type table registers the VM template under both VM type names. */
  lemma VmTemplateRegisteredTwice()
    ensures WindowsVm in TypeTable && TypeTable[WindowsVm] == VmTemplate
    ensures LinuxVm in TypeTable && TypeTable[LinuxVm] == VmTemplate
  {
  }
}

=== FILE: templates.dfy ===
/** Endpoint templates (`endpoints.EndpointInfo`): a URL pattern with named
    placeholders plus an API version. How a template matches an identifier and
    how it rebuilds one from captured values live in the `endpoints` package,
    which is not part of this model; both are supplied as a `Registry`. */
module Templates {
  import opened Results

  datatype Template = Template(pattern: string, apiVersion: string)

  /** The template capability: `Match` gives the captured placeholder values when
      the identifier fits the pattern, `BuildURL` substitutes values back in. */
  datatype Registry = Registry(
    matchId: (Template, string) -> Option<map<string, string>>,
    build: (Template, map<string, string>) -> Result<string>)
  {
    predicate Matches(t: Template, id: string) {
      matchId(t, id).Some?
    }
  }
}

=== FILE: terraform.dfy ===
/** The data the serializer reads and writes: cty values (resource state), the
    provider's configschema blocks, and the configuration blocks hclwrite builds.
    Text formatting of a block is hclwrite's business and stays abstract. */
module Terraform {
  import opened Results

  /** A cty value. `Coll` stands for every value cty can iterate (list, set, tuple,
      map), holding its elements in cty's iteration order. */
  datatype Value =
    | Null
    | Bool(b: bool)
    | Number(n: real)
    | Str(s: string)
    | Obj(attrs: map<string, Value>)
    | Coll(elems: seq<Value>)

  /** `state.GetAttr(name)` on a value that has the attribute; Null otherwise. */
  function GetAttr(state: Value, name: string): Value {
    if state.Obj? && name in state.attrs then state.attrs[name] else Null
  }

  datatype AttributeSchema = AttributeSchema(computed: bool, optional: bool)

  /** The schema's attribute map; as a Go map, no name occurs twice. */
  type AttributeList = s: seq<(string, AttributeSchema)> | forall i, j :: 0 <= i < j < |s| ==> s[i].0 != s[j].0
    witness []

  datatype NestingMode = NestingSingle | NestingGroup | NestingList | NestingSet | NestingMap

  /** configschema.Block. `blockTypes` lists the nested block types in the order a
      Go range over the map visits them. */
  datatype Block = Block(attributes: AttributeList, blockTypes: seq<(string, NestedBlock)>)

  datatype NestedBlock = NestedBlock(nesting: NestingMode, block: Block)

  /** `BlockTypes` is a Go map, so no block type name occurs twice, at any depth. */
  predicate DistinctBlockTypes(b: Block)
    decreases b
  {
    && (forall i, j :: 0 <= i < j < |b.blockTypes| ==> b.blockTypes[i].0 != b.blockTypes[j].0)
    && forall k :: 0 <= k < |b.blockTypes| ==> DistinctBlockTypes(b.blockTypes[k].1.block)
  }

  /** A schema block as the provider reports it. */
  type Schema = b: Block | DistinctBlockTypes(b)
    witness Block([], [])

  /** An hclwrite block: type, labels and body. */
  datatype OutBlock = OutBlock(kind: string, labels: seq<string>, body: OutBody)

  datatype OutBody = OutBody(attributes: seq<(string, Value)>, blocks: seq<OutBlock>)
}
